=== FILE: README.md ===
# naomidiag: a Dafny model of the menu, controls and test-screen logic

naomidiag is a diagnostics ROM for the Sega Naomi arcade board. Every video
frame it samples the JVS controls and runs the handler of the current screen:
the main menu, the monitor test pages, or one of the other test screens. This
project models the logic behind that loop as pure step functions over
immutable records, and proves what the code promises about it:

- `repeat.dfy` (module `RepeatTimer`): the per-button auto-repeat timer of
  controls.c. A repeat slot is either unarmed or a hardware countdown. The
  countdown is abstracted as the microseconds it has left, and time passing
  is an explicit `Elapse` step.
- `controls.dfy` (module `Controls`): `get_controls`. It covers the reinit
  reset of the eight repeat slots and the priority chain
  test > service > start > directions. It also covers the aliasing of the
  front-panel switches, the player-2 gating, the separate edge and repeat
  chains with C's short-circuit `||`, the raw analog levels and the DIP
  switch packing.
- `menu.dfy` (module `Menu`): the `entries` table and the control handling
  of `main_menu`. The cursor skips separators, service wraps and a scroll
  window is kept around the cursor. The entered entry is remembered for the
  next visit.
- `monitor.dfy` (module `Monitor`): the page cycling of `monitor_tests`.
- `crosshatch.dfy` (module `CrossHatch`): the integer error distribution that
  places the cross-hatch lines flush with both screen edges.
- `navigator.dfy` (module `Navigator`): `draw_screen`. It dispatches on the
  current screen and derives reinit from `curscreen != oldscreen`. It looks
  the screen up in the table and moves to the screen the handler returns.

The source keeps its state in static variables. The model gathers them into
the record `Navigator.Nav`, which each frame's step function takes and
returns.

Up and down are not exclusive within a frame. controls.c:178-199 has two
separate `if` chains, one for fresh presses and one for repeats, so a fresh
up press and an expiring down repeat are both reported;
`Controls.UpAndDownCanBothFire` exhibits such a frame. The main menu still
acts on only one of them, because its own chain puts up before down.

## Model

| member | source | states |
|---|---|---|
| RepeatTimer.Elapse | controls.c:30 | a running countdown only decreases, never disarms, and reads zero exactly once the elapsed time covers what was left |
| RepeatTimer.Repeat | controls.c:11-41 | fires exactly when the button is held and its armed countdown has expired; an unarmed slot stays unarmed; a release disarms; a fire re-arms with 50000 µs; a running countdown of a held button is untouched |
| RepeatTimer.RepeatInit | controls.c:43-59 | no fresh press leaves the slot as it was; a fresh press (re)arms it with 500000 µs, whether it was armed before or not |
| RepeatTimer.UnarmedNeverFires | controls.c:15-20 | over any run of frames an unarmed slot never fires and stays unarmed, so a held button does not repeat without a fresh press |
| RepeatTimer.ReleaseStopsRepeat | controls.c:22-28 | after a release nothing fires again in the run and the slot ends unarmed |
| RepeatTimer.HeldRunAccounting | controls.c:30-37 | over held frames the countdown left plus the time elapsed is at least the starting countdown plus 50000 µs per fire |
| RepeatTimer.RepeatCadence | controls.c:8-41 | a button pressed and then held must be held 500000 µs before the first repeat and 50000 µs more for each later one |
| Controls.PackDips | controls.c:130 | the packed DIP value is below 16 and bit k is set exactly when switch k+1 is on |
| Controls.RepeatEither | controls.c:192 | the direction repeats if player 1's slot fires or, with two players, player 2's does; player 2's slot is polled only when player 1's did not fire |
| Controls.ArmPair | controls.c:182-183 | a player's fresh press arms that player's slot with 500000 µs, whatever it held before; without a press the slot is left as it was |
| Controls.EdgeChain | controls.c:178-191 | a fresh first-direction press wins; the second direction is reported only without it; only the reported direction's slots are armed |
| Controls.RepeatChain | controls.c:192-199 | the second direction's slots are polled only when the first direction did not repeat, and are untouched otherwise |
| Controls.Axis | controls.c:178-199 | the first direction is reported exactly when freshly pressed or held with an expired countdown; the second exactly when freshly pressed without the first, or held with an expired countdown while the first had nothing due; the repeat chain polls the slots the edge chain left, player 2's only with two players and after player 1's did not fire, and the second direction's only when the first had nothing due; a fired countdown is re-armed with 50000 µs, a winning press by a holding player leaves 500000 µs, and a released polled slot is unarmed |
| Controls.Vertical | controls.c:178-199 | up is reported exactly for a fresh press or a held up whose countdown in slot 0 or 1 ran out; down exactly for a fresh press up did not beat, or a held, expired down while up had nothing due; player 2 counts only with two players |
| Controls.Lateral | controls.c:200-221 | the same for left and right with slots 4..7 |
| Controls.TestEvent | controls.c:162 | test is the test button, or front-panel switch 1 exactly when the controls are not fully separated |
| Controls.ServiceEvent | controls.c:166 | service is player 1's button, player 2's only with two players, and front-panel switch 2 only when not fully separated; exact in each of these cases |
| Controls.StartEvent | controls.c:172 | player 1's start counts; player 2's only with two players |
| Controls.Navigate | controls.c:162-223 | test, then service, then start, each exact as an if-and-only-if; any of the three silences all directions and leaves the slots alone; otherwise the directions come from the two direction pairs |
| Controls.RawInputs | controls.c:97-160 | player 2's four axes read 0x80 with fewer than two players and player 2's levels otherwise; player 1's axes, the switches and the DIP value pass through |
| Controls.GetControls | controls.c:63-226 | test, service and start are exact and exclusive and silence the directions with the slots untouched (unarmed after a reinit); otherwise each direction is reported exactly by a fresh press or an expired, held countdown, and each of the eight slots ends as the edge chain and then the repeat chain leave it (`SlotAfter`); a reinit frame reports only fresh presses, with up/down and left/right exclusive, and leaves every slot unarmed or armed with 500000 µs; player 2's axes read 0x80 below two players; the raw record is `RawInputs` of the held levels (axes, panel switches, packed DIP value) |
| Controls.VerticalSlots | controls.c:178-199 | slots 0..3 after the up/down pair are as `SlotAfter` gives them: re-armed by a winning press, then polled with the held level when the repeat chain reaches them |
| Controls.LateralSlots | controls.c:200-221 | slots 4..7 after the left/right pair are as `SlotAfter` gives them |
| Controls.NavigateSlots | controls.c:176-221 | once the chain reaches the directions, all eight slots by index are as `SlotAfter` gives them |
| Controls.NavigateReported | controls.c:176-221 | past test, service and start, each direction event is exactly its fresh press or its expired, held countdown, the second of a pair only when the first had nothing due |
| Controls.NavigateFromUnarmed | controls.c:75-90 | from all-unarmed slots, each direction event is exactly a fresh press that wins its chain |
| Controls.AxisFromUnarmed | controls.c:86-89 | from unarmed slots a direction pair leaves each slot unarmed or armed with 500000 µs |
| Controls.NavigateSlotsFromUnarmed | controls.c:86-221 | from unarmed slots all eight slots end unarmed or armed with 500000 µs |
| Controls.HeldDirectionRepeats | controls.c:192-221 | once the chain reaches the directions, a held direction whose countdown has expired is reported without a fresh press; for the second of a pair, when the first had nothing due |
| Controls.AxisWithoutExpiry | controls.c:178-199 | with no expired countdown a direction pair reports exactly its fresh presses, first direction first |
| Controls.ReinitOnlyEdges | controls.c:75-90 | on a reinit frame each direction event is exactly a fresh press that wins the priority chain, and up/down and left/right are exclusive |
| Controls.ReinitResetsSlots | controls.c:86-89 | a reinit frame behaves like a frame whose slots were all unarmed beforehand |
| Controls.AxisSinglePlayer | controls.c:178-221 | with one player, a direction pair's events do not depend on player 2's inputs or slots |
| Controls.CategoriesSinglePlayer | controls.c:162-175 | with one player, the test, service and start events do not depend on player 2 |
| Controls.UpDownSinglePlayer | controls.c:178-199 | with one player, the up and down events do not depend on player 2's inputs or slots |
| Controls.LeftRightSinglePlayer | controls.c:200-221 | with one player, the left and right events do not depend on player 2's inputs or slots |
| Controls.SinglePlayerIgnoresPlayer2 | controls.c:166-221 | with fewer than two players, changing player 2's pressed and held records and slots changes no navigation event |
| Controls.SwitchAliasing | controls.c:162-169 | front-panel switch 1 raises test and switch 2 raises service when the controls are not fully separated, and never when they are |
| Controls.UpAndDownCanBothFire | controls.c:178-199 | there is a frame in which both up and down are reported |
| Menu.EntriesWellFormed | screens.c:52-99 | the shipped table has non-empty first and last entries; only the separator has a NULL handler, and its screen id is 0 |
| Menu.NextNonEmpty | screens.c:199-203 | the forward skip stops at the first non-empty entry at or after the start |
| Menu.PrevNonEmpty | screens.c:178-182 | the backward skip stops at the first non-empty entry at or before the start |
| Menu.MaxEntries | screens.c:117 | the visible-entry count is the unsigned quotient: 21 times it fits in height − 40 with less than 21 to spare, and it is at least 1 from a height of 61 |
| Menu.Reinit | screens.c:115-124 | the cursor comes from the remembered selection and the window starts at 0 unless the cursor is past the first page, in which case the cursor is the last visible line |
| Menu.ScrollDown | screens.c:206-209 | the window stays while it shows the cursor; otherwise it moves so that the cursor is its last line; after a move down the window still shows the cursor |
| Menu.ScrollUp | screens.c:185-188 | the window stays while it shows the cursor; otherwise it starts at the cursor; after a move up the window still shows the cursor |
| Menu.UnsignedWindowTop | screens.c:120-123 | the window top `cursor - (maxentries - 1)` computed modulo 2^32 equals the model's value, which is cursor + 1 when no entry fits |
| Menu.CursorDown | screens.c:190-205 | down goes to the next non-empty entry above the cursor, skipping only separators, and does not move from the last entry |
| Menu.CursorUp | screens.c:169-184 | up goes to the next non-empty entry below the cursor, skipping only separators, and does not move from entry 0 |
| Menu.MenuControls | screens.c:126-210 | test/start enters the entry under the cursor and remembers it; service wraps from the last entry to 0; the cursor never rests on a separator; the window keeps showing the cursor and moves by the smallest step (`ScrollDown` after a move down or a service step, `ScrollUp` after a move up or the wrap to 0); no event changes nothing |
| Menu.MainMenu | screens.c:101-210 | a reinit measures the screen and restores the remembered cursor; the scroll window holds whenever it has at least one line; from the reinit state or the retained one, service, up and down move the cursor and window exactly as `CursorDown`/`CursorUp` with `ScrollDown`/`ScrollUp`, and no event leaves that state as it is; entering a screen stores the cursor in the remembered selection, anything else keeps it |
| Menu.PrevNonEmptyFinds | screens.c:178-182 | the backward skip finds the nearest non-empty entry below a run of separators |
| Menu.NextNonEmptyFinds | screens.c:199-203 | the forward skip finds the nearest non-empty entry above a run of separators |
| Menu.DownThenUp | screens.c:169-205 | down then up returns to the starting non-empty entry, except from the last entry |
| Menu.UpThenDown | screens.c:169-205 | up then down returns to the starting non-empty entry, except from entry 0 |
| Menu.ServiceWraps | screens.c:158-167 | service on the last entry moves the cursor to 0 and scrolls the window to the top, whatever window it had |
| Menu.SelectionRestored | screens.c:115-137 | the entry entered with test/start is where the next reinit puts the cursor, with the window showing it |
| Monitor.NextPage | screens.c:283-296 | the result is a test page 1..6: the next page below 6, and page 1 from page 6 |
| Monitor.PrevPage | screens.c:297-310 | the result is a test page 1..6: the previous page above 1, and page 6 from pages 0 and 1 |
| Monitor.MonitorTestsStep | screens.c:263-310 | reinit shows page 0; test/start leaves for the main menu; otherwise service/right turns to the next page and left to the previous one; the page stays in 0..6, and once off page 0 it stays in 1..6 |
| Monitor.PagesRoundTrip | screens.c:283-310 | left undoes right and right undoes left on pages 1..6 |
| Monitor.ForwardCycle | screens.c:283-296 | six presses of right from a test page return to it and visit only pages 1..6 |
| CrossHatch.Jump | screens.c:423-424 | the spacing is the largest whose steps jumps leave room for the last line's width |
| CrossHatch.Error | screens.c:428-429 | the leftover pixels are fewer than the number of boxes, and jump·steps + weight + leftover is the whole extent |
| CrossHatch.AccumAt | screens.c:431-446 | the loop's carry stays below the box count, and by line i at most i + 1 pixels of bump have accumulated |
| CrossHatch.AccumInvariant | screens.c:431-446 | after line i the accumulator has turned (i+1)·leftover into whole pixels of bump times the box count plus a carry below the box count |
| CrossHatch.BumpIsQuotient | screens.c:431-446 | the bump of line i is the floor of (i+1)·leftover divided by the box count |
| CrossHatch.BumpStep | screens.c:441-446 | from one line to the next the accumulated bump grows by zero or one pixel |
| CrossHatch.BumpFloor | screens.c:431-446 | no bump is negative |
| CrossHatch.BumpBounds | screens.c:431-446 | no line is bumped further than the last one |
| CrossHatch.LastBump | screens.c:428-446 | by the last line the whole leftover has been spent on bumps |
| CrossHatch.PlaceLines | screens.c:423-456 | the accumulator loop places steps + 1 lines, each at i·jump plus the floor of (i+1)·leftover/steps |
| CrossHatch.LineAt | screens.c:436-453 | line i is the line weight wide and starts i jumps along, bumped forward by at most i + 1 pixels |
| CrossHatch.LineOnScreen | screens.c:434-437 | every placed line lies within the screen |
| CrossHatch.LinesFlush | screens.c:423-446 | the first line starts at pixel 0 and the last line ends exactly on the far edge |
| CrossHatch.LineSpacing | screens.c:434-446 | consecutive lines are jump or jump + 1 pixels apart, so the lines never move backwards |
| CrossHatch.PlacedLines | screens.c:423-456 | the placed lines are weight wide, on the screen, flush with both edges and evenly spaced to within a pixel |
| CrossHatch.CrossHatchLines | screens.c:423-483 | 17 vertical and 13 horizontal lines, flush with the right and bottom edges; no two vertical lines start on the same column when there is room for it |
| Navigator.ElapseSlots | controls.c:30 | each of the eight slots runs its countdown down by the same elapsed time; unarmed slots stay unarmed, and nothing changes when no time passed |
| Navigator.LookupFrom | screens.c:589-597 | the scan returns the first entry with the screen id, and finds nothing exactly when no entry has it |
| Navigator.Lookup | screens.c:589-597 | the scan of the whole table returns the first entry with the screen id, and nothing exactly when no entry has it |
| Navigator.LookupTail | screens.c:73-99 | from the fifth entry on, the scan finds the EEPROM, SRAM, BIOS menu and reboot entries and steps over the separator |
| Navigator.LookupTable | screens.c:52-99 | for every nonzero id the scan of the shipped table lands on that screen's own entry, never on the separator |
| Navigator.LookupFindsHandler | screens.c:84-88 | no nonzero id reaches the separator's NULL handler |
| Navigator.MainMenuFrame | screens.c:101-137 | the main menu acts on this frame's `get_controls` sample: the slots are the sample's, it leaves exactly on test or start, and the cursor and window are what the menu logic makes of the sampled events; only the menu's variables and the slots change, the remembered selection changes only when it leaves, and leaving enters the entry it remembers |
| Navigator.MonitorFrame | screens.c:263-310 | the monitor screen acts on this frame's `get_controls` sample: the slots are the sample's, it leaves exactly on test or start, and the page is the page step of the sampled events; only the page and the slots change |
| Navigator.RunHandler | screens.c:492-568 | the unimplemented screens return to the main menu, the BIOS menu and reboot entries return their own ids, and only the monitor screen changes state |
| Navigator.Dispatch | screens.c:579-607 | the main menu and the monitor screen run their own frame; the five unimplemented screens return to the main menu; the BIOS menu and reboot entries return their own id; an unknown id is an identity; the retained state stays valid and off the main menu the menu state is untouched |
| Navigator.DrawScreen | screens.c:570-613 | the screen the handler returns becomes current, the screen just run becomes the previous one, and the retained state is the handler's after the timers ran; the state stays valid, and the next frame reinitialises exactly when the handler asked to move |
| Navigator.HeldUpRepeatsAfterInitialDelay | controls.c:178-195 | after a frame with a fresh, held up press and dt microseconds of timer time, a frame with up held and nothing pressed reports up exactly when dt is at least 500000 µs |
| Navigator.FirstFrame | screens.c:573-574 | the power-on state is valid, and its first frame reinitialises the main menu, which measures the screen |
| Navigator.KnownScreensStayKnown | screens.c:579-612 | from the main menu or a screen in the table, the next screen is again the main menu or a screen in the table |
| Navigator.UnknownScreenStays | screens.c:599-603 | an id missing from the table is kept, with only the timers running on |
| Navigator.MenuUntouchedElsewhere | screens.c:579-607 | away from the main menu the remembered selection and the menu window do not change |
| Navigator.StubsBounce | screens.c:492-556 | the audio, input, DIP, EEPROM and SRAM screens go straight back to the main menu, which then reinitialises |
| Navigator.ReturnToMenuRestoresCursor | screens.c:115-130 | back on the main menu from another screen with nothing pressed, the cursor is on the entry entered last, whatever is held |

## Left out

- Rendering and sound: text, sprites, boxes and scroll sounds are side effects with no bearing on the state, so they are no-ops here.
- Floating point: the gradient colour scale, the scroll-indicator animation offset and the frame-rate accounting.
- main.c: hardware set-up, the profiling loop and vblank waiting are I/O plumbing. Its per-frame call of `draw_screen` is `Navigator.DrawScreen`.
- The maple bus poll: the pressed and held button records are inputs of each frame.
- The EEPROM, SRAM, DIP, audio and input tests have no body in the code. They are modelled only as the immediate return to the main menu.
- `enter_test_mode`, called by `system_menu`, enters the BIOS test menu; a BIOS call is outside the model. `system_menu` is modelled only as returning its own screen id. `reboot_system` has no body yet in the code and only returns its own screen id, which the model does too.
- The analog edge arrays and `ANALOG_DEAD_ZONE` of `get_controls`: they are reset on reinit and never read.
- The hardware timers: a slot holds the microseconds it has left, and time passes by `Elapse`. `timer_start` is taken to always return a timer, never the out-of-timers value −1. Timer handles and their lifetime are not modelled. The code itself discards handles: the reinit loop of controls.c:86-89 sets every slot to −1 without calling `timer_stop`, unlike controls.c:25, 34 and 54. So a screen change while a slot is armed abandons a running hardware timer. Also, when player 1's press wins, `repeat_init` arms player 2's slot if player 2 pressed too, even with one player (controls.c:182-183), and with one player that slot is never polled. The model's `Unarmed` after a reinit says only that the slot no longer repeats.
- RepeatTimer.RepeatCadence: it bounds the time held before repeats only in timer microseconds. How many frames that takes depends on the frame rate, which is an input.
- The two-argument calls of `get_controls` in screens.c do not match its three-argument definition. The model follows the definition and makes `full_separate` an input of each frame.
- CrossHatch.PlaceLines: it requires an extent of at least the line weight (3 pixels). Below that the C code mixes unsigned and signed arithmetic, which is not modelled; Naomi screens are hundreds of pixels wide.
- Menu.MainMenu: the cursor and window arithmetic uses unbounded integers rather than 32-bit unsigned values. Two wraps can happen. One is in the visible-entry count for heights below 40, which `Menu.MaxEntries` models. The other is `maxentries - 1` when no entry fits (heights 40 to 60, screens.c:122, 155 and 208). There the unsigned result is cursor + 1, which `Menu.UnsignedWindowTop` shows the model also computes; the top can then reach the table length. The cursor stays below the table length and the top stays within one of it, so no other sum comes near 2^32.
- The `video_width`/`video_height` calls: the screen height is an input of each frame and the cross-hatch extents are parameters.

=== FILE: controls.dfy ===
/** The controls sampler of controls.c (`get_controls`).

    The maple bus poll is not modelled: the pressed (edge) and held (level)
    button records are inputs, and so are the player count from the system
    settings, the separated-controls mode and the reinit flag. The eight repeat
    slots that the source keeps in a static array are passed in and returned.
 */
module Controls {
  import opened RepeatTimer

  type Byte = x: int | 0 <= x < 256

  /** The analog value reported for player 2's axes when only one player is configured. */
  const NeutralAxis: Byte := 0x80

  /** One player's inputs as the bus reports them. */
  datatype Player = Player(
    up: bool, down: bool, left: bool, right: bool,
    start: bool, service: bool,
    button1: bool, button2: bool, button3: bool,
    button4: bool, button5: bool, button6: bool,
    analog1: Byte, analog2: Byte, analog3: Byte, analog4: Byte)

  /** A whole bus poll: both players, the test button, the two front-panel
      switches and the four DIP switches. */
  datatype Buttons = Buttons(
    player1: Player, player2: Player,
    test: bool, psw1: bool, psw2: bool,
    dip1: bool, dip2: bool, dip3: bool, dip4: bool)

  /** The repeat slots of one direction for both players. */
  datatype SlotPair = SlotPair(p1: Slot, p2: Slot)

  /** The slots of one direction pair: up/down, or left/right. */
  datatype AxisSlots = AxisSlots(first: SlotPair, second: SlotPair)

  /** The source's eight repeat slots: indices 0..3 are up (player 1, 2) and
      down (player 1, 2), indices 4..7 are left and right in the same order. */
  datatype Slots = Slots(vertical: AxisSlots, lateral: AxisSlots)

  const UnarmedPair := SlotPair(Unarmed, Unarmed)
  const UnarmedAxis := AxisSlots(UnarmedPair, UnarmedPair)
  /** The state of the slots at power-on and after a reinit. */
  const AllUnarmed := Slots(UnarmedAxis, UnarmedAxis)

  /** Slot i of the source's `repeats` array. */
  function SlotAt(s: Slots, i: nat): Slot
    requires i < 8
  {
    var a := if i < 4 then s.vertical else s.lateral;
    var p := if i % 4 < 2 then a.first else a.second;
    if i % 2 == 0 then p.p1 else p.p2
  }

  /** The one-shot navigation events of a frame. */
  datatype Events = Events(
    up: bool, down: bool, left: bool, right: bool,
    start: bool, test: bool, service: bool)

  /** The raw levels `get_controls` reports alongside the events, for
      calibration and pinout checks. */
  datatype Raw = Raw(
    joy1V: Byte, joy1H: Byte, joy1A3: Byte, joy1A4: Byte,
    joy2V: Byte, joy2H: Byte, joy2A3: Byte, joy2A4: Byte,
    joy1: Player, joy2: Player, test: bool,
    psw1: bool, psw2: bool, dipswitches: nat)

  /** The record `get_controls` returns. */
  datatype Controls = Controls(events: Events, raw: Raw)

  /** The events of a frame and the repeat slots after it. */
  datatype Navigation = Navigation(events: Events, slots: Slots)

  datatype Sample = Sample(controls: Controls, slots: Slots)

  /** The four DIP switches packed into bits 0..3. */
  function PackDips(b: Buttons): (d: nat)
    ensures d < 16
    ensures b.dip1 <==> d % 2 == 1
    ensures b.dip2 <==> (d / 2) % 2 == 1
    ensures b.dip3 <==> (d / 4) % 2 == 1
    ensures b.dip4 <==> (d / 8) % 2 == 1
  {
    (if b.dip1 then 1 else 0) + (if b.dip2 then 2 else 0)
      + (if b.dip3 then 4 else 0) + (if b.dip4 then 8 else 0)
  }

  /** A player touching nothing, with the analog levels at 0. */
  const NoPlayer := Player(false, false, false, false, false, false, false, false, false, false, false, false, 0, 0, 0, 0)
  /** A bus poll with nothing pressed or held. */
  const NoButtons := Buttons(NoPlayer, NoPlayer, false, false, false, false, false, false, false)

  /** One direction's inputs for both players: the fresh press (edge) and
      the held level. */
  datatype Direction = Direction(pressed1: bool, pressed2: bool, held1: bool, held2: bool)
  {
    /** The edge-chain condition: player 1 pressed it, or player 2 did and
        two players are configured. */
    predicate PressedBy(two: bool) {
      pressed1 || (two && pressed2)
    }

    /** A held button whose countdown has run out: player 1's, or player
        2's when two players are configured. */
    predicate Expiring(two: bool, s: SlotPair) {
      (held1 && s.p1.Expired()) || (two && held2 && s.p2.Expired())
    }

    /** As `Expiring`, leaving out a player who pressed the direction afresh
        on this frame: when the press wins, it re-arms that player's slot
        before the slot is polled. */
    predicate Due(two: bool, s: SlotPair) {
      (held1 && !pressed1 && s.p1.Expired()) || (two && held2 && !pressed2 && s.p2.Expired())
    }
  }

  function Up(pressed: Buttons, held: Buttons): Direction {
    Direction(pressed.player1.up, pressed.player2.up, held.player1.up, held.player2.up)
  }
  function Down(pressed: Buttons, held: Buttons): Direction {
    Direction(pressed.player1.down, pressed.player2.down, held.player1.down, held.player2.down)
  }
  function Left(pressed: Buttons, held: Buttons): Direction {
    Direction(pressed.player1.left, pressed.player2.left, held.player1.left, held.player2.left)
  }
  function Right(pressed: Buttons, held: Buttons): Direction {
    Direction(pressed.player1.right, pressed.player2.right, held.player1.right, held.player2.right)
  }

  /** Polls a direction's repeat slots for both players with C's
      short-circuit: player 2's slot is polled only when player 1's did not
      fire and two players are configured. */
  function RepeatEither(d: Direction, two: bool, s: SlotPair): (r: (bool, SlotPair))
    ensures r.0 <==> Repeat(d.held1, s.p1).fired || (two && Repeat(d.held2, s.p2).fired)
    ensures r.1.p1 == Repeat(d.held1, s.p1).slot
    ensures r.1.p2 == (if !Repeat(d.held1, s.p1).fired && two then Repeat(d.held2, s.p2).slot else s.p2)
  {
    var a := Repeat(d.held1, s.p1);
    if a.fired then (true, s.(p1 := a.slot))
    else if two then
      var b := Repeat(d.held2, s.p2);
      (b.fired, SlotPair(a.slot, b.slot))
    else (false, s.(p1 := a.slot))
  }

  /** Both players' `repeat_init` calls for one direction. */
  function ArmPair(d: Direction, s: SlotPair): (r: SlotPair)
    // each player's slot is armed with the long delay by that player's own press ...
    ensures d.pressed1 ==> r.p1 == Armed(InitialDelay)
    ensures d.pressed2 ==> r.p2 == Armed(InitialDelay)
    // ... and is left as it was without one
    ensures !d.pressed1 ==> r.p1 == s.p1
    ensures !d.pressed2 ==> r.p2 == s.p2
  {
    SlotPair(RepeatInit(d.pressed1, s.p1), RepeatInit(d.pressed2, s.p2))
  }

  /** The outcome of one chain over a direction pair. */
  datatype AxisEvents = AxisEvents(first: bool, second: bool, slots: AxisSlots)

  /** The edge chain of a direction pair: a fresh press of the first
      direction, else of the second, arms both players' slots of that
      direction (each player's slot only if that player pressed it). */
  function EdgeChain(first: Direction, second: Direction, two: bool, s: AxisSlots): (r: AxisEvents)
    ensures r.first <==> first.PressedBy(two)
    ensures r.second <==> !r.first && second.PressedBy(two)
    ensures r.slots.first == (if r.first then ArmPair(first, s.first) else s.first)
    ensures r.slots.second == (if r.second then ArmPair(second, s.second) else s.second)
  {
    if first.PressedBy(two) then AxisEvents(true, false, s.(first := ArmPair(first, s.first)))
    else if second.PressedBy(two) then AxisEvents(false, true, s.(second := ArmPair(second, s.second)))
    else AxisEvents(false, false, s)
  }

  /** The repeat chain of a direction pair: the first direction's slots are
      polled, and only when neither fired are the second direction's. */
  function RepeatChain(first: Direction, second: Direction, two: bool, s: AxisSlots): (r: AxisEvents)
    ensures r.first <==> RepeatEither(first, two, s.first).0
    ensures r.second <==> !r.first && RepeatEither(second, two, s.second).0
    ensures r.slots.first == RepeatEither(first, two, s.first).1
    ensures r.slots.second == (if r.first then s.second else RepeatEither(second, two, s.second).1)
  {
    var (firstRepeat, f) := RepeatEither(first, two, s.first);
    if firstRepeat then AxisEvents(true, false, s.(first := f))
    else
      var (secondRepeat, g) := RepeatEither(second, two, s.second);
      AxisEvents(false, secondRepeat, AxisSlots(f, g))
  }

  /** When the first direction of a pair is reported: a fresh press, or a
      held button whose countdown has run out. */
  predicate FirstReported(first: Direction, two: bool, s: AxisSlots)
  {
    first.PressedBy(two) || first.Expiring(two, s.first)
  }

  /** When the second direction of a pair is reported: a fresh press that the
      first direction did not beat, or a held button whose countdown has run
      out while the first direction had nothing due. */
  predicate SecondReported(first: Direction, second: Direction, two: bool, s: AxisSlots)
  {
    || (!first.PressedBy(two) && second.PressedBy(two))
    || (!first.Due(two, s.first) && second.Expiring(two, s.second))
  }

  /** One direction pair of controls.c: the edge chain runs first, then the
      repeat chain on the slots it left, independently of it, so both
      directions of a pair can be reported in one frame. */
  function Axis(first: Direction, second: Direction, two: bool, s: AxisSlots): (r: AxisEvents)
    ensures r.first <==> FirstReported(first, two, s)
    ensures r.second <==> SecondReported(first, second, two, s)
    // a player who presses and holds a direction that wins leaves its slot armed with the long delay
    ensures first.pressed1 && first.held1 ==> r.slots.first.p1 == Armed(InitialDelay)
    ensures !first.PressedBy(two) && second.pressed1 && second.held1 ==> r.slots.second.p1 == Armed(InitialDelay)
    // a released direction's slot is unarmed once it has been polled
    ensures !first.held1 ==> r.slots.first.p1 == Unarmed
    ensures !first.Due(two, s.first) && !second.held1 ==> r.slots.second.p1 == Unarmed
    // a countdown that fires is re-armed with the short delay
    ensures first.held1 && !first.pressed1 && s.first.p1.Expired() ==> r.slots.first.p1 == Armed(SubsequentDelay)
    // the repeat chain polls the slots the edge chain left: the first direction's always, with
    // player 2's only after player 1's did not fire; the second direction's only when the first had nothing due
    ensures var e := EdgeChain(first, second, two, s).slots;
      r.slots.first == RepeatEither(first, two, e.first).1
    ensures var e := EdgeChain(first, second, two, s).slots;
      r.slots.second == (if first.Due(two, s.first) then e.second else RepeatEither(second, two, e.second).1)
  {
    var e := EdgeChain(first, second, two, s);
    var rc := RepeatChain(first, second, two, e.slots);
    AxisEvents(e.first || rc.first, e.second || rc.second, rc.slots)
  }

  /** The up/down pair: repeat slots 0..3 of the source. */
  function Vertical(pressed: Buttons, held: Buttons, two: bool, s: AxisSlots): (r: AxisEvents)
    // up is reported exactly for a fresh press or a held button whose countdown ran out;
    // down exactly for a fresh press up did not beat, or an expired, held countdown while up had nothing due
    ensures r.first <==> FirstReported(Up(pressed, held), two, s)
    ensures r.second <==> SecondReported(Up(pressed, held), Down(pressed, held), two, s)
    // player 1's fresh press, or a held button whose countdown ran out, reports up
    ensures pressed.player1.up || (held.player1.up && s.first.p1.Expired()) ==> r.first
    // player 2's count only with two players
    ensures two && (pressed.player2.up || (held.player2.up && s.first.p2.Expired())) ==> r.first
  {
    Axis(Up(pressed, held), Down(pressed, held), two, s)
  }

  /** The left/right pair: repeat slots 4..7 of the source. */
  function Lateral(pressed: Buttons, held: Buttons, two: bool, s: AxisSlots): (r: AxisEvents)
    // left is reported exactly for a fresh press or a held button whose countdown ran out;
    // right exactly for a fresh press left did not beat, or an expired, held countdown while left had nothing due
    ensures r.first <==> FirstReported(Left(pressed, held), two, s)
    ensures r.second <==> SecondReported(Left(pressed, held), Right(pressed, held), two, s)
    // player 1's fresh press, or a held button whose countdown ran out, reports left
    ensures pressed.player1.left || (held.player1.left && s.first.p1.Expired()) ==> r.first
    // player 2's count only with two players
    ensures two && (pressed.player2.left || (held.player2.left && s.first.p2.Expired())) ==> r.first
  {
    Axis(Left(pressed, held), Right(pressed, held), two, s)
  }

  /** The test event: the test button, or front-panel switch 1 unless the
      controls are fully separated. */
  function TestEvent(pressed: Buttons, fullSeparate: bool): (r: bool)
    ensures pressed.test ==> r
    ensures fullSeparate ==> (r <==> pressed.test)
    ensures !fullSeparate ==> (r <==> pressed.test || pressed.psw1)
  {
    pressed.test || (!fullSeparate && pressed.psw1)
  }

  /** The service event: either player's service button (player 2 only with
      two players), or front-panel switch 2 unless fully separated. */
  function ServiceEvent(pressed: Buttons, players: int, fullSeparate: bool): (r: bool)
    ensures pressed.player1.service ==> r
    // player 2's button counts only with two players
    ensures players < 2 ==> (r <==> pressed.player1.service || (!fullSeparate && pressed.psw2))
    ensures fullSeparate ==> (r <==> pressed.player1.service || (players >= 2 && pressed.player2.service))
    ensures !fullSeparate && players >= 2 ==>
              (r <==> pressed.player1.service || pressed.psw2 || pressed.player2.service)
  {
    pressed.player1.service || (!fullSeparate && pressed.psw2) || (players >= 2 && pressed.player2.service)
  }

  /** The start event: either player's start button, player 2 only with two players. */
  function StartEvent(pressed: Buttons, players: int): (r: bool)
    ensures players < 2 ==> (r <==> pressed.player1.start)
    ensures players >= 2 ==> (r <==> pressed.player1.start || pressed.player2.start)
  {
    pressed.player1.start || (players >= 2 && pressed.player2.start)
  }

  /** The event logic of `get_controls` on given slots: the priority chain
      test > service > start > directions. */
  function Navigate(pressed: Buttons, held: Buttons, players: int, fullSeparate: bool, s: Slots): (r: Navigation)
    ensures r.events.test <==> TestEvent(pressed, fullSeparate)
    ensures r.events.service <==> !r.events.test && ServiceEvent(pressed, players, fullSeparate)
    ensures r.events.start <==> !r.events.test && !r.events.service && StartEvent(pressed, players)
    // the categories are exclusive: any of the first three silences every direction
    ensures r.events.test || r.events.service || r.events.start ==>
              !r.events.up && !r.events.down && !r.events.left && !r.events.right && r.slots == s
    ensures !r.events.test && !r.events.service && !r.events.start ==>
              var v := Vertical(pressed, held, players >= 2, s.vertical);
              var l := Lateral(pressed, held, players >= 2, s.lateral);
              && r.events.up == v.first && r.events.down == v.second
              && r.events.left == l.first && r.events.right == l.second
              && r.slots == Slots(v.slots, l.slots)
  {
    var two := players >= 2;
    if TestEvent(pressed, fullSeparate) then
      Navigation(Events(false, false, false, false, false, true, false), s)
    else if ServiceEvent(pressed, players, fullSeparate) then
      Navigation(Events(false, false, false, false, false, false, true), s)
    else if StartEvent(pressed, players) then
      Navigation(Events(false, false, false, false, true, false, false), s)
    else
      var v := Vertical(pressed, held, two, s.vertical);
      var l := Lateral(pressed, held, two, s.lateral);
      Navigation(Events(v.first, v.second, l.first, l.second, false, false, false), Slots(v.slots, l.slots))
  }

  /** The raw levels of a frame; player 2's axes read neutral unless two
      players are configured. */
  function RawInputs(held: Buttons, players: int): (r: Raw)
    ensures players < 2 ==>
              && r.joy2V == NeutralAxis && r.joy2H == NeutralAxis
              && r.joy2A3 == NeutralAxis && r.joy2A4 == NeutralAxis
    ensures players >= 2 ==>
              && r.joy2V == held.player2.analog1 && r.joy2H == held.player2.analog2
              && r.joy2A3 == held.player2.analog3 && r.joy2A4 == held.player2.analog4
    ensures r.joy1V == held.player1.analog1 && r.joy1H == held.player1.analog2
    ensures r.joy1A3 == held.player1.analog3 && r.joy1A4 == held.player1.analog4
    ensures r.dipswitches == PackDips(held) && r.dipswitches < 16
    ensures r.psw1 == held.psw1 && r.psw2 == held.psw2
  {
    var two := players >= 2;
    Raw(held.player1.analog1, held.player1.analog2, held.player1.analog3, held.player1.analog4,
        if two then held.player2.analog1 else NeutralAxis,
        if two then held.player2.analog2 else NeutralAxis,
        if two then held.player2.analog3 else NeutralAxis,
        if two then held.player2.analog4 else NeutralAxis,
        held.player1, held.player2, held.test,
        held.psw1, held.psw2, PackDips(held))
  }

  /** A slot as a reinit frame can leave it: unarmed, or armed by a fresh press. */
  predicate Rested(x: Slot)
  {
    x == Unarmed || x == Armed(InitialDelay)
  }

  predicate PairRested(p: SlotPair)
  {
    Rested(p.p1) && Rested(p.p2)
  }

  /** On a reinit frame every slot starts unarmed, so afterwards each one is
      unarmed or freshly armed by a press of this frame. */
  lemma AxisFromUnarmed(first: Direction, second: Direction, two: bool)
    ensures var r := Axis(first, second, two, UnarmedAxis).slots;
      PairRested(r.first) && PairRested(r.second)
  {
    var e := EdgeChain(first, second, two, UnarmedAxis);
    assert PairRested(e.slots.first) && PairRested(e.slots.second);
  }

  /** All eight slots rested, by index. */
  lemma SlotsRested(s: Slots)
    requires PairRested(s.vertical.first) && PairRested(s.vertical.second)
    requires PairRested(s.lateral.first) && PairRested(s.lateral.second)
    ensures forall i :: 0 <= i < 8 ==> Rested(SlotAt(s, i))
  {
  }

  /** Direction j in the order of the source's `repeats` array: up, down,
      left, right; slot 2j is player 1's and slot 2j + 1 player 2's. */
  function DirectionAt(pressed: Buttons, held: Buttons, j: nat): Direction
    requires j < 4
  {
    if j == 0 then Up(pressed, held)
    else if j == 1 then Down(pressed, held)
    else if j == 2 then Left(pressed, held)
    else Right(pressed, held)
  }

  /** Slots 2j and 2j + 1: direction j for both players. */
  function PairAt(s: Slots, j: nat): SlotPair
    requires j < 4
  {
    SlotPair(SlotAt(s, 2 * j), SlotAt(s, 2 * j + 1))
  }

  /** Whether the edge chain reports direction j: the first of a pair on its
      own press, the second only when the first was not pressed. */
  predicate EdgeWins(pressed: Buttons, held: Buttons, two: bool, j: nat)
    requires j < 4
  {
    if j % 2 == 0 then DirectionAt(pressed, held, j).PressedBy(two)
    else !DirectionAt(pressed, held, j - 1).PressedBy(two) && DirectionAt(pressed, held, j).PressedBy(two)
  }

  /** Slot i after the edge chain: `repeat_init` re-arms it when its player
      pressed a direction the chain reports. */
  function EdgeSlotAt(pressed: Buttons, held: Buttons, two: bool, s: Slots, i: nat): Slot
    requires i < 8
  {
    var d := DirectionAt(pressed, held, i / 2);
    var own := if i % 2 == 0 then d.pressed1 else d.pressed2;
    if EdgeWins(pressed, held, two, i / 2) && own then Armed(InitialDelay) else SlotAt(s, i)
  }

  /** Whether the repeat chain polls slot i: a second direction only when
      the first had nothing due, and player 2's slot only with two players
      and when player 1's slot of the same direction did not fire. */
  predicate PolledAt(pressed: Buttons, held: Buttons, two: bool, s: Slots, i: nat)
    requires i < 8
  {
    var j := i / 2;
    && (j % 2 == 0 || !DirectionAt(pressed, held, j - 1).Due(two, PairAt(s, j - 1)))
    && (i % 2 == 0 || (two && !Repeat(DirectionAt(pressed, held, j).held1, EdgeSlotAt(pressed, held, two, s, i - 1)).fired))
  }

  /** Slot i after a frame that reaches the directions, slot by slot: the
      value the edge chain left, polled with its player's held level when
      the repeat chain gets to it. */
  function SlotAfter(pressed: Buttons, held: Buttons, two: bool, s: Slots, i: nat): Slot
    requires i < 8
  {
    var d := DirectionAt(pressed, held, i / 2);
    var h := if i % 2 == 0 then d.held1 else d.held2;
    var e := EdgeSlotAt(pressed, held, two, s, i);
    if PolledAt(pressed, held, two, s, i) then Repeat(h, e).slot else e
  }

  /** The up/down pair leaves slots 0..3 as `SlotAfter` says. */
  lemma VerticalSlots(pressed: Buttons, held: Buttons, two: bool, s: Slots)
    ensures var a := Axis(Up(pressed, held), Down(pressed, held), two, s.vertical).slots;
      && a.first.p1 == SlotAfter(pressed, held, two, s, 0) && a.first.p2 == SlotAfter(pressed, held, two, s, 1)
      && a.second.p1 == SlotAfter(pressed, held, two, s, 2) && a.second.p2 == SlotAfter(pressed, held, two, s, 3)
  {
    assert PairAt(s, 0) == s.vertical.first;
  }

  /** The left/right pair leaves slots 4..7 as `SlotAfter` says. */
  lemma LateralSlots(pressed: Buttons, held: Buttons, two: bool, s: Slots)
    ensures var a := Axis(Left(pressed, held), Right(pressed, held), two, s.lateral).slots;
      && a.first.p1 == SlotAfter(pressed, held, two, s, 4) && a.first.p2 == SlotAfter(pressed, held, two, s, 5)
      && a.second.p1 == SlotAfter(pressed, held, two, s, 6) && a.second.p2 == SlotAfter(pressed, held, two, s, 7)
  {
    assert PairAt(s, 2) == s.lateral.first;
  }

  /** Slots that agree with `SlotAfter` field by field agree with it by index. */
  lemma SlotsByIndex(pressed: Buttons, held: Buttons, two: bool, s: Slots, t: Slots)
    requires t.vertical.first.p1 == SlotAfter(pressed, held, two, s, 0) && t.vertical.first.p2 == SlotAfter(pressed, held, two, s, 1)
    requires t.vertical.second.p1 == SlotAfter(pressed, held, two, s, 2) && t.vertical.second.p2 == SlotAfter(pressed, held, two, s, 3)
    requires t.lateral.first.p1 == SlotAfter(pressed, held, two, s, 4) && t.lateral.first.p2 == SlotAfter(pressed, held, two, s, 5)
    requires t.lateral.second.p1 == SlotAfter(pressed, held, two, s, 6) && t.lateral.second.p2 == SlotAfter(pressed, held, two, s, 7)
    ensures forall i :: 0 <= i < 8 ==> SlotAt(t, i) == SlotAfter(pressed, held, two, s, i)
  {
    forall i | 0 <= i < 8
      ensures SlotAt(t, i) == SlotAfter(pressed, held, two, s, i)
    {
      if i == 0 {} else if i == 1 {} else if i == 2 {} else if i == 3 {}
      else if i == 4 {} else if i == 5 {} else if i == 6 {} else {}
    }
  }

  /** Past test, service and start, every slot ends as `SlotAfter` says. */
  lemma NavigateSlots(pressed: Buttons, held: Buttons, players: int, fullSeparate: bool, s: Slots)
    ensures var n := Navigate(pressed, held, players, fullSeparate, s);
      !n.events.test && !n.events.service && !n.events.start ==>
        forall i :: 0 <= i < 8 ==> SlotAt(n.slots, i) == SlotAfter(pressed, held, players >= 2, s, i)
  {
    var two := players >= 2;
    var n := Navigate(pressed, held, players, fullSeparate, s);
    if !n.events.test && !n.events.service && !n.events.start {
      assert Vertical(pressed, held, two, s.vertical) == Axis(Up(pressed, held), Down(pressed, held), two, s.vertical);
      assert Lateral(pressed, held, two, s.lateral) == Axis(Left(pressed, held), Right(pressed, held), two, s.lateral);
      VerticalSlots(pressed, held, two, s);
      LateralSlots(pressed, held, two, s);
      SlotsByIndex(pressed, held, two, s, n.slots);
    }
  }

  /** Past test, service and start, each direction comes from a fresh press
      or from a countdown that ran out. */
  lemma NavigateReported(pressed: Buttons, held: Buttons, players: int, fullSeparate: bool, s: Slots)
    ensures var e := Navigate(pressed, held, players, fullSeparate, s).events;
      var nav := !e.test && !e.service && !e.start;
      var two := players >= 2;
      && (e.up <==> nav && FirstReported(Up(pressed, held), two, s.vertical))
      && (e.down <==> nav && SecondReported(Up(pressed, held), Down(pressed, held), two, s.vertical))
      && (e.left <==> nav && FirstReported(Left(pressed, held), two, s.lateral))
      && (e.right <==> nav && SecondReported(Left(pressed, held), Right(pressed, held), two, s.lateral))
  {
    var two := players >= 2;
    var v := Axis(Up(pressed, held), Down(pressed, held), two, s.vertical);
    var l := Axis(Left(pressed, held), Right(pressed, held), two, s.lateral);
    assert Vertical(pressed, held, two, s.vertical) == v;
    assert Lateral(pressed, held, two, s.lateral) == l;
  }

  /** From all-unarmed slots only fresh presses are reported. */
  lemma NavigateFromUnarmed(pressed: Buttons, held: Buttons, players: int, fullSeparate: bool)
    ensures var e := Navigate(pressed, held, players, fullSeparate, AllUnarmed).events;
      var nav := !e.test && !e.service && !e.start;
      var two := players >= 2;
      && (e.up <==> nav && Up(pressed, held).PressedBy(two))
      && (e.down <==> nav && !e.up && Down(pressed, held).PressedBy(two))
      && (e.left <==> nav && Left(pressed, held).PressedBy(two))
      && (e.right <==> nav && !e.left && Right(pressed, held).PressedBy(two))
  {
    var two := players >= 2;
    NavigateReported(pressed, held, players, fullSeparate, AllUnarmed);
    assert !Up(pressed, held).Expiring(two, UnarmedPair) && !Up(pressed, held).Due(two, UnarmedPair);
    assert !Down(pressed, held).Expiring(two, UnarmedPair);
    assert !Left(pressed, held).Expiring(two, UnarmedPair) && !Left(pressed, held).Due(two, UnarmedPair);
    assert !Right(pressed, held).Expiring(two, UnarmedPair);
  }

  /** From all-unarmed slots every slot ends unarmed or freshly armed. */
  lemma NavigateSlotsFromUnarmed(pressed: Buttons, held: Buttons, players: int, fullSeparate: bool)
    ensures var n := Navigate(pressed, held, players, fullSeparate, AllUnarmed);
      forall i :: 0 <= i < 8 ==> Rested(SlotAt(n.slots, i))
  {
    var two := players >= 2;
    var n := Navigate(pressed, held, players, fullSeparate, AllUnarmed);
    var v := Axis(Up(pressed, held), Down(pressed, held), two, UnarmedAxis);
    var l := Axis(Left(pressed, held), Right(pressed, held), two, UnarmedAxis);
    AxisFromUnarmed(Up(pressed, held), Down(pressed, held), two);
    AxisFromUnarmed(Left(pressed, held), Right(pressed, held), two);
    assert n.slots == AllUnarmed || n.slots == Slots(v.slots, l.slots);
    SlotsRested(n.slots);
  }

  /** `get_controls(state, reinit, full_separate)`: reinit unarms all eight
      repeat slots before anything else happens. */
  function GetControls(pressed: Buttons, held: Buttons, players: int, fullSeparate: bool,
                       reinit: bool, slots: Slots): (r: Sample)
    // test, then service, then start, each exact
    ensures r.controls.events.test <==> TestEvent(pressed, fullSeparate)
    ensures r.controls.events.service <==> !r.controls.events.test && ServiceEvent(pressed, players, fullSeparate)
    ensures r.controls.events.start <==>
              !r.controls.events.test && !r.controls.events.service && StartEvent(pressed, players)
    // any of the three silences the directions and leaves the slots alone (unarmed after a reinit)
    ensures var e := r.controls.events;
      e.test || e.service || e.start ==>
        !e.up && !e.down && !e.left && !e.right && r.slots == (if reinit then AllUnarmed else slots)
    // otherwise each direction comes from a fresh press or a countdown that ran out
    ensures var e := r.controls.events;
      var nav := !e.test && !e.service && !e.start;
      var s := if reinit then AllUnarmed else slots;
      var two := players >= 2;
      && (e.up <==> nav && FirstReported(Up(pressed, held), two, s.vertical))
      && (e.down <==> nav && SecondReported(Up(pressed, held), Down(pressed, held), two, s.vertical))
      && (e.left <==> nav && FirstReported(Left(pressed, held), two, s.lateral))
      && (e.right <==> nav && SecondReported(Left(pressed, held), Right(pressed, held), two, s.lateral))
    // a reinit frame reports only fresh presses, and leaves each slot unarmed or freshly armed
    ensures reinit ==>
              var e := r.controls.events;
              var nav := !e.test && !e.service && !e.start;
              var two := players >= 2;
              && (e.up <==> nav && Up(pressed, held).PressedBy(two))
              && (e.down <==> nav && !e.up && Down(pressed, held).PressedBy(two))
              && (e.left <==> nav && Left(pressed, held).PressedBy(two))
              && (e.right <==> nav && !e.left && Right(pressed, held).PressedBy(two))
    // otherwise each of the eight slots is as the edge and repeat chains leave it
    ensures var e := r.controls.events;
      !e.test && !e.service && !e.start ==>
        forall i :: 0 <= i < 8 ==>
          SlotAt(r.slots, i) == SlotAfter(pressed, held, players >= 2, if reinit then AllUnarmed else slots, i)
    ensures reinit ==> forall i :: 0 <= i < 8 ==> Rested(SlotAt(r.slots, i))
    // player 2's axes read neutral below two players
    ensures players < 2 ==>
              var raw := r.controls.raw;
              raw.joy2V == NeutralAxis && raw.joy2H == NeutralAxis && raw.joy2A3 == NeutralAxis && raw.joy2A4 == NeutralAxis
    ensures r.controls.raw.dipswitches < 16
    // the raw levels are this frame's held inputs and packed DIP switches
    ensures r.controls.raw == RawInputs(held, players)
  {
    var s := if reinit then AllUnarmed else slots;
    var n := Navigate(pressed, held, players, fullSeparate, s);
    NavigateReported(pressed, held, players, fullSeparate, s);
    NavigateSlots(pressed, held, players, fullSeparate, s);
    if reinit then
      NavigateFromUnarmed(pressed, held, players, fullSeparate);
      NavigateSlotsFromUnarmed(pressed, held, players, fullSeparate);
      Sample(Controls(n.events, RawInputs(held, players)), n.slots)
    else
      Sample(Controls(n.events, RawInputs(held, players)), n.slots)
  }

  /** Once the priority chain reaches the directions, a direction whose
      button is held and whose countdown has run out is reported without a
      fresh press; the second of a pair needs the first to have nothing due. */
  lemma HeldDirectionRepeats(pressed: Buttons, held: Buttons, players: int, fullSeparate: bool, slots: Slots)
    requires !TestEvent(pressed, fullSeparate) && !ServiceEvent(pressed, players, fullSeparate)
    requires !StartEvent(pressed, players)
    ensures var e := GetControls(pressed, held, players, fullSeparate, false, slots).controls.events;
      var two := players >= 2;
      && (held.player1.up && slots.vertical.first.p1.Expired() ==> e.up)
      && (held.player1.left && slots.lateral.first.p1.Expired() ==> e.left)
      && (held.player1.down && slots.vertical.second.p1.Expired() && !Up(pressed, held).Due(two, slots.vertical.first) ==> e.down)
      && (held.player1.right && slots.lateral.second.p1.Expired() && !Left(pressed, held).Due(two, slots.lateral.first) ==> e.right)
      && (two && held.player2.up && slots.vertical.first.p2.Expired() ==> e.up)
      && (two && held.player2.left && slots.lateral.first.p2.Expired() ==> e.left)
  {
  }

  /** No countdown of a direction pair has expired. */
  predicate NoneExpired(s: AxisSlots)
  {
    !s.first.p1.Expired() && !s.first.p2.Expired() && !s.second.p1.Expired() && !s.second.p2.Expired()
  }

  /** Without an expired countdown a direction pair reports exactly its edge chain. */
  lemma AxisWithoutExpiry(first: Direction, second: Direction, two: bool, s: AxisSlots)
    requires NoneExpired(s)
    ensures var r := Axis(first, second, two, s);
      && (r.first <==> first.PressedBy(two))
      && (r.second <==> !r.first && second.PressedBy(two))
  {
    var e := EdgeChain(first, second, two, s);
    assert NoneExpired(e.slots);
  }

  /** With reinit, every slot starts unarmed, so no direction can repeat in
      that frame: each direction event is exactly a fresh press that wins the
      priority chain, and up/down (and left/right) are then exclusive. */
  lemma ReinitOnlyEdges(pressed: Buttons, held: Buttons, players: int, fullSeparate: bool, slots: Slots)
    ensures var c := GetControls(pressed, held, players, fullSeparate, true, slots).controls.events;
      var nav := !c.test && !c.service && !c.start;
      var two := players >= 2;
      && (c.up <==> nav && (pressed.player1.up || (two && pressed.player2.up)))
      && (c.down <==> nav && !c.up && (pressed.player1.down || (two && pressed.player2.down)))
      && (c.left <==> nav && (pressed.player1.left || (two && pressed.player2.left)))
      && (c.right <==> nav && !c.left && (pressed.player1.right || (two && pressed.player2.right)))
  {
    var two := players >= 2;
    AxisWithoutExpiry(Up(pressed, held), Down(pressed, held), two, UnarmedAxis);
    AxisWithoutExpiry(Left(pressed, held), Right(pressed, held), two, UnarmedAxis);
  }

  /** Reinit behaves as if every slot had been unarmed beforehand. */
  lemma ReinitResetsSlots(pressed: Buttons, held: Buttons, players: int, fullSeparate: bool, slots: Slots)
    ensures GetControls(pressed, held, players, fullSeparate, true, slots)
         == GetControls(pressed, held, players, fullSeparate, false, AllUnarmed)
  {
  }

  /** Two directions that agree on player 1's press and held level. */
  predicate SamePlayer1(d: Direction, d': Direction)
  {
    d.pressed1 == d'.pressed1 && d.held1 == d'.held1
  }

  /** With one player, a direction pair ignores player 2's inputs and slots:
      the events are the same, and so are player 1's slots afterwards. */
  lemma AxisSinglePlayer(first: Direction, second: Direction, first': Direction, second': Direction,
                         two: bool, s: AxisSlots, t: AxisSlots)
    requires !two
    requires SamePlayer1(first, first') && SamePlayer1(second, second')
    requires s.first.p1 == t.first.p1 && s.second.p1 == t.second.p1
    ensures var r := Axis(first, second, two, s);
      var u := Axis(first', second', two, t);
      r.first == u.first && r.second == u.second
  {
    var e := EdgeChain(first, second, two, s);
    var e' := EdgeChain(first', second', two, t);
    assert e.first == e'.first && e.second == e'.second;
    assert e.slots.first.p1 == e'.slots.first.p1 && e.slots.second.p1 == e'.slots.second.p1;
  }

  /** With one player, the up/down pair ignores player 2. */
  lemma VerticalSinglePlayer(pressed: Buttons, held: Buttons, pressed': Buttons, held': Buttons,
                             two: bool, s: AxisSlots, t: AxisSlots)
    requires !two
    requires pressed'.player1 == pressed.player1 && held'.player1 == held.player1
    requires s.first.p1 == t.first.p1 && s.second.p1 == t.second.p1
    ensures Vertical(pressed, held, two, s).first == Vertical(pressed', held', two, t).first
    ensures Vertical(pressed, held, two, s).second == Vertical(pressed', held', two, t).second
  {
    AxisSinglePlayer(Up(pressed, held), Down(pressed, held), Up(pressed', held'), Down(pressed', held'), two, s, t);
  }

  /** With one player, the left/right pair ignores player 2. */
  lemma LateralSinglePlayer(pressed: Buttons, held: Buttons, pressed': Buttons, held': Buttons,
                            two: bool, s: AxisSlots, t: AxisSlots)
    requires !two
    requires pressed'.player1 == pressed.player1 && held'.player1 == held.player1
    requires s.first.p1 == t.first.p1 && s.second.p1 == t.second.p1
    ensures Lateral(pressed, held, two, s).first == Lateral(pressed', held', two, t).first
    ensures Lateral(pressed, held, two, s).second == Lateral(pressed', held', two, t).second
  {
    AxisSinglePlayer(Left(pressed, held), Right(pressed, held), Left(pressed', held'), Right(pressed', held'), two, s, t);
  }

  /** With one player, the test, service and start events ignore player 2. */
  lemma CategoriesSinglePlayer(pressed: Buttons, held: Buttons, pressed': Buttons, held': Buttons,
                             players: int, fullSeparate: bool, s: Slots, t: Slots)
    requires players < 2
    requires pressed'.player1 == pressed.player1 && held'.player1 == held.player1
    requires pressed'.test == pressed.test && pressed'.psw1 == pressed.psw1 && pressed'.psw2 == pressed.psw2
    requires s.vertical.first.p1 == t.vertical.first.p1 && s.vertical.second.p1 == t.vertical.second.p1
    requires s.lateral.first.p1 == t.lateral.first.p1 && s.lateral.second.p1 == t.lateral.second.p1
    ensures var e, e' := Navigate(pressed, held, players, fullSeparate, s).events,
                         Navigate(pressed', held', players, fullSeparate, t).events;
      e.test == e'.test && e.service == e'.service && e.start == e'.start
  {
    assert TestEvent(pressed, fullSeparate) == TestEvent(pressed', fullSeparate);
    assert ServiceEvent(pressed, players, fullSeparate) == ServiceEvent(pressed', players, fullSeparate);
  }

  /** With one player, the up and down events ignore player 2. */
  lemma UpDownSinglePlayer(pressed: Buttons, held: Buttons, pressed': Buttons, held': Buttons,
                             players: int, fullSeparate: bool, s: Slots, t: Slots)
    requires players < 2
    requires pressed'.player1 == pressed.player1 && held'.player1 == held.player1
    requires pressed'.test == pressed.test && pressed'.psw1 == pressed.psw1 && pressed'.psw2 == pressed.psw2
    requires s.vertical.first.p1 == t.vertical.first.p1 && s.vertical.second.p1 == t.vertical.second.p1
    requires s.lateral.first.p1 == t.lateral.first.p1 && s.lateral.second.p1 == t.lateral.second.p1
    ensures var e, e' := Navigate(pressed, held, players, fullSeparate, s).events,
                         Navigate(pressed', held', players, fullSeparate, t).events;
      e.up == e'.up && e.down == e'.down
  {
    CategoriesSinglePlayer(pressed, held, pressed', held', players, fullSeparate, s, t);
    VerticalSinglePlayer(pressed, held, pressed', held', players >= 2, s.vertical, t.vertical);
  }

  /** With one player, the left and right events ignore player 2. */
  lemma LeftRightSinglePlayer(pressed: Buttons, held: Buttons, pressed': Buttons, held': Buttons,
                             players: int, fullSeparate: bool, s: Slots, t: Slots)
    requires players < 2
    requires pressed'.player1 == pressed.player1 && held'.player1 == held.player1
    requires pressed'.test == pressed.test && pressed'.psw1 == pressed.psw1 && pressed'.psw2 == pressed.psw2
    requires s.vertical.first.p1 == t.vertical.first.p1 && s.vertical.second.p1 == t.vertical.second.p1
    requires s.lateral.first.p1 == t.lateral.first.p1 && s.lateral.second.p1 == t.lateral.second.p1
    ensures var e, e' := Navigate(pressed, held, players, fullSeparate, s).events,
                         Navigate(pressed', held', players, fullSeparate, t).events;
      e.left == e'.left && e.right == e'.right
  {
    CategoriesSinglePlayer(pressed, held, pressed', held', players, fullSeparate, s, t);
    LateralSinglePlayer(pressed, held, pressed', held', players >= 2, s.lateral, t.lateral);
  }

  /** With fewer than two players, player 2's buttons raise no event:
      replacing player 2's pressed and held records and player 2's repeat
      slots changes none of the navigation events. */
  lemma SinglePlayerIgnoresPlayer2(pressed: Buttons, held: Buttons, pressed': Buttons, held': Buttons,
                                   players: int, fullSeparate: bool, reinit: bool, slots: Slots, slots': Slots)
    requires players < 2
    requires pressed'.player1 == pressed.player1 && held'.player1 == held.player1
    requires pressed'.test == pressed.test && pressed'.psw1 == pressed.psw1 && pressed'.psw2 == pressed.psw2
    requires slots'.vertical.first.p1 == slots.vertical.first.p1 && slots'.vertical.second.p1 == slots.vertical.second.p1
    requires slots'.lateral.first.p1 == slots.lateral.first.p1 && slots'.lateral.second.p1 == slots.lateral.second.p1
    ensures GetControls(pressed, held, players, fullSeparate, reinit, slots).controls.events
         == GetControls(pressed', held', players, fullSeparate, reinit, slots').controls.events
  {
    var s, t := if reinit then AllUnarmed else slots, if reinit then AllUnarmed else slots';
    CategoriesSinglePlayer(pressed, held, pressed', held', players, fullSeparate, s, t);
    UpDownSinglePlayer(pressed, held, pressed', held', players, fullSeparate, s, t);
    LeftRightSinglePlayer(pressed, held, pressed', held', players, fullSeparate, s, t);
  }

  /** The front-panel switches alias to test and service exactly when the
      controls are not fully separated. */
  lemma SwitchAliasing(pressed: Buttons, held: Buttons, players: int, reinit: bool, slots: Slots)
    ensures pressed.psw1 ==> GetControls(pressed, held, players, false, reinit, slots).controls.events.test
    ensures pressed.psw2 && !pressed.test && !pressed.psw1 ==>
              GetControls(pressed, held, players, false, reinit, slots).controls.events.service
    ensures !pressed.test ==> !GetControls(pressed, held, players, true, reinit, slots).controls.events.test
    ensures !pressed.player1.service && !(players >= 2 && pressed.player2.service) ==>
              !GetControls(pressed, held, players, true, reinit, slots).controls.events.service
  {
  }

  /** Up and down are not exclusive within one frame: the edge chain and the
      repeat chain are separate, so a fresh up press and an expired down
      repeat both fire. */
  lemma UpAndDownCanBothFire()
    ensures var pressed := NoButtons.(player1 := NoPlayer.(up := true));
      var held := NoButtons.(player1 := NoPlayer.(down := true));
      var slots := AllUnarmed.(vertical := UnarmedAxis.(second := SlotPair(Armed(0), Unarmed)));
      var c := GetControls(pressed, held, 1, false, false, slots).controls.events;
      c.up && c.down
  {
  }
}

=== FILE: crosshatch.dfy ===
/** Line placement of the cross-hatch monitor page (screens.c).

    The screen is divided into `steps` boxes by `steps + 1` lines of
    `CrossWeight` pixels. The spacing `(extent - CrossWeight) / steps` seldom
    divides evenly, so the leftover pixels are spread over the lines by an
    error accumulator that bumps later lines by one pixel at a time, so that
    the last line ends exactly on the far edge. Only the coordinate along the
    axis the lines are spread over is modelled; the drawing call is left out.
 */
module CrossHatch {

  /** Line width in pixels. */
  const CrossWeight: int := 3
  /** Boxes across and down. */
  const CrossHorizontalSteps: int := 16
  const CrossVerticalSteps: int := 12

  /** A line's extent along the axis: pixels lo .. hi - 1. */
  datatype Line = Line(lo: int, hi: int)

  /** Distance between consecutive unbumped lines. */
  function Jump(extent: int, steps: int): (j: int)
    requires extent >= CrossWeight && steps >= 1
    // the largest spacing whose steps jumps still leave room for the last line
    ensures j >= 0
    ensures j * steps <= extent - CrossWeight < j * steps + steps
  {
    (extent - CrossWeight) / steps
  }

  /** Pixels left over after `steps` jumps and one line width. */
  function Error(extent: int, steps: int): (e: int)
    requires extent >= CrossWeight && steps >= 1
    ensures 0 <= e < steps
    ensures Jump(extent, steps) * steps + CrossWeight + e == extent
  {
    extent - (Jump(extent, steps) * steps + CrossWeight)
  }

  /** The accumulator of the placement loop after line i: the bump so far
      and the error carried to the next line. */
  datatype Accum = Accum(bump: int, carry: int)

  /** One line of the loop: the leftover is added to the carry, and every
      full `steps` of carry moves this and all later lines one pixel on. */
  function AccumAt(i: nat, error: int, steps: int): (a: Accum)
    requires steps >= 1 && 0 <= error < steps
    // the carry stays below one pixel's worth, and line i is bumped by at most i + 1 pixels
    ensures 0 <= a.carry < steps
    ensures 0 <= a.bump <= i + 1
  {
    var prev := if i == 0 then Accum(0, 0) else AccumAt(i - 1, error, steps);
    var c := prev.carry + error;
    if c >= steps then Accum(prev.bump + 1, c - steps) else Accum(prev.bump, c)
  }

  /** A positive multiple of b is at least b. */
  lemma MulAtLeast(x: int, b: int)
    requires x >= 1 && b >= 0
    ensures x * b >= b
  {
    var y := x - 1;
    assert x * b == y * b + b;
    assert y * b >= 0;
  }

  /** A quotient and a remainder in range determine the division. */
  lemma DivisionUnique(a: int, b: int, q: int, r: int)
    requires b >= 1 && 0 <= r < b && a == q * b + r
    ensures q == a / b
  {
    var q' := a / b;
    var r' := a % b;
    assert a == q' * b + r';
    var d := q - q';
    assert d * b == q * b - q' * b;
    if d >= 1 {
      MulAtLeast(d, b);
    } else if d <= -1 {
      MulAtLeast(-d, b);
    }
  }

  /** The loop invariant of the accumulator: after line i the error has been
      added i + 1 times, every `steps` of it turned into one pixel of bump,
      and what remains is less than `steps`. */
  lemma {:induction false} AccumInvariant(i: nat, error: int, steps: int)
    requires steps >= 1 && 0 <= error < steps
    ensures var a := AccumAt(i, error, steps);
      0 <= a.carry < steps && a.bump * steps + a.carry == (i + 1) * error
  {
    var prev := if i == 0 then Accum(0, 0) else AccumAt(i - 1, error, steps);
    if i > 0 {
      AccumInvariant(i - 1, error, steps);
    }
    assert prev.bump * steps + prev.carry == i * error;
    assert (i + 1) * error == i * error + error;
    assert (prev.bump + 1) * steps == prev.bump * steps + steps;
  }

  /** The closed form of the bump: the floor of (i + 1)·error / steps. */
  lemma BumpIsQuotient(i: nat, error: int, steps: int)
    requires steps >= 1 && 0 <= error < steps
    ensures AccumAt(i, error, steps).bump == ((i + 1) * error) / steps
  {
    AccumInvariant(i, error, steps);
    var a := AccumAt(i, error, steps);
    DivisionUnique((i + 1) * error, steps, a.bump, a.carry);
  }

  /** Bumps never decrease and grow by at most one per line. */
  lemma BumpStep(i: nat, error: int, steps: int)
    requires steps >= 1 && 0 <= error < steps
    ensures AccumAt(i, error, steps).bump <= AccumAt(i + 1, error, steps).bump <= AccumAt(i, error, steps).bump + 1
  {
  }

  /** After the last line the whole leftover has been spent on bumps. */
  lemma LastBump(error: int, steps: int)
    requires steps >= 1 && 0 <= error < steps
    ensures AccumAt(steps, error, steps).bump == error
  {
    BumpIsQuotient(steps, error, steps);
    assert (steps + 1) * error == error * steps + error;
    DivisionUnique((steps + 1) * error, steps, error, error);
  }

  /** No line up to the last is bumped further than the last line. */
  lemma {:induction false} BumpBounds(i: nat, error: int, steps: int)
    requires steps >= 1 && 0 <= error < steps && i <= steps
    ensures AccumAt(i, error, steps).bump <= AccumAt(steps, error, steps).bump
    decreases steps - i
  {
    if i < steps {
      BumpStep(i, error, steps);
      BumpBounds(i + 1, error, steps);
    }
  }

  /** No bump is negative. */
  lemma {:induction false} BumpFloor(i: nat, error: int, steps: int)
    requires steps >= 1 && 0 <= error < steps
    ensures 0 <= AccumAt(i, error, steps).bump
  {
    if i > 0 {
      BumpFloor(i - 1, error, steps);
    }
  }

  /** Fewer jumps cover no more pixels. */
  lemma MulMonotone(i: int, steps: int, jump: int)
    requires 0 <= i <= steps && jump >= 0
    ensures 0 <= i * jump <= jump * steps
  {
    if jump > 0 && i > 0 {
      MulAtLeast(i, jump);
    }
    if jump > 0 && i < steps {
      MulAtLeast(steps - i, jump);
      assert jump * steps - i * jump == (steps - i) * jump;
    }
  }

  /** Line i: i jumps plus the bump accumulated up to it. */
  function LineAt(i: nat, extent: int, steps: int): (l: Line)
    requires extent >= CrossWeight && steps >= 1
    ensures l.hi - l.lo == CrossWeight
    // i jumps along, bumped forward by at most i + 1 pixels
    ensures i * Jump(extent, steps) <= l.lo <= i * Jump(extent, steps) + i + 1
  {
    var lo := i * Jump(extent, steps) + AccumAt(i, Error(extent, steps), steps).bump;
    Line(lo, lo + CrossWeight)
  }

  /** Every line up to the last lies on the screen. */
  lemma LineOnScreen(i: nat, extent: int, steps: int)
    requires extent >= CrossWeight && steps >= 1 && i <= steps
    ensures 0 <= LineAt(i, extent, steps).lo && LineAt(i, extent, steps).hi <= extent
  {
    var jump, error := Jump(extent, steps), Error(extent, steps);
    var b := AccumAt(i, error, steps).bump;
    BumpFloor(i, error, steps);
    BumpBounds(i, error, steps);
    LastBump(error, steps);
    assert 0 <= b <= error;
    MulMonotone(i, steps, jump);
    assert LineAt(i, extent, steps) == Line(i * jump + b, i * jump + b + CrossWeight);
  }

  /** The first line is flush with the near edge and the last with the far edge. */
  lemma LinesFlush(extent: int, steps: int)
    requires extent >= CrossWeight && steps >= 1
    ensures LineAt(0, extent, steps).lo == 0
    ensures LineAt(steps, extent, steps).hi == extent
  {
    LastBump(Error(extent, steps), steps);
  }

  /** Consecutive lines are a jump apart, or one pixel more where a bump lands. */
  lemma LineSpacing(i: nat, extent: int, steps: int)
    requires extent >= CrossWeight && steps >= 1 && 0 < i
    ensures LineAt(i - 1, extent, steps).lo + Jump(extent, steps) <= LineAt(i, extent, steps).lo
    ensures LineAt(i, extent, steps).lo <= LineAt(i - 1, extent, steps).lo + Jump(extent, steps) + 1
  {
    var jump := Jump(extent, steps);
    BumpStep(i - 1, Error(extent, steps), steps);
    assert i * jump == (i - 1) * jump + jump;
  }

  /** Places the `steps + 1` lines over an axis `extent` pixels long, as the
      two loops of the cross-hatch page do: the loop computes exactly
      `LineAt`, whose bump is the floor of (i + 1)·leftover / steps. */
  method PlaceLines(extent: int, steps: int) returns (lines: seq<Line>)
    requires extent >= CrossWeight && steps >= 1
    ensures |lines| == steps + 1
    ensures forall i :: 0 <= i < |lines| ==> lines[i] == LineAt(i, extent, steps)
    ensures forall i :: 0 <= i < |lines| ==>
              lines[i].lo == i * Jump(extent, steps) + ((i + 1) * Error(extent, steps)) / steps
  {
    var jump := (extent - CrossWeight) / steps;
    var error := extent - ((jump * steps) + CrossWeight);
    assert jump == Jump(extent, steps) && error == Error(extent, steps);
    var accum := 0;
    var bump := 0;
    lines := [];
    var loc := 0;
    while loc < steps + 1
      invariant 0 <= loc <= steps + 1 && |lines| == loc
      invariant loc == 0 ==> bump == 0 && accum == 0
      invariant 0 <= accum < steps
      invariant loc > 0 ==> Accum(bump, accum) == AccumAt(loc - 1, error, steps)
      invariant forall i :: 0 <= i < loc ==> lines[i] == LineAt(i, extent, steps)
    {
      var lo := loc * jump;
      var hi := lo + CrossWeight;
      ghost var c := accum + error;
      ghost var b := bump;
      accum := accum + error;
      while accum >= steps
        invariant c < 2 * steps
        invariant (bump == b && accum == c) || (bump == b + 1 && accum == c - steps && c >= steps)
        decreases accum
      {
        bump := bump + 1;
        accum := accum - steps;
      }
      assert Accum(bump, accum) == AccumAt(loc, error, steps);
      lines := lines + [Line(lo + bump, hi + bump)];
      loc := loc + 1;
    }
    forall i | 0 <= i < |lines|
      ensures lines[i].lo == i * jump + ((i + 1) * error) / steps
    {
      BumpIsQuotient(i, error, steps);
    }
  }

  /** The lines `PlaceLines` draws: on the screen, `CrossWeight` wide, flush
      with both edges, and evenly spaced up to one pixel. */
  lemma PlacedLines(extent: int, steps: int, lines: seq<Line>)
    requires extent >= CrossWeight && steps >= 1
    requires |lines| == steps + 1 && forall i :: 0 <= i < |lines| ==> lines[i] == LineAt(i, extent, steps)
    ensures forall i :: 0 <= i < |lines| ==> lines[i].hi == lines[i].lo + CrossWeight
    ensures forall i :: 0 <= i < |lines| ==> 0 <= lines[i].lo && lines[i].hi <= extent
    ensures lines[0].lo == 0 && lines[steps].hi == extent
    ensures forall i :: 0 < i < |lines| ==>
              lines[i - 1].lo + Jump(extent, steps) <= lines[i].lo <= lines[i - 1].lo + Jump(extent, steps) + 1
  {
    LinesFlush(extent, steps);
    forall i | 0 <= i < |lines|
      ensures 0 <= lines[i].lo && lines[i].hi <= extent
    {
      LineOnScreen(i, extent, steps);
    }
    forall i | 0 < i < |lines|
      ensures lines[i - 1].lo + Jump(extent, steps) <= lines[i].lo <= lines[i - 1].lo + Jump(extent, steps) + 1
    {
      LineSpacing(i, extent, steps);
    }
  }

  /** The cross-hatch page: vertical lines across the width, horizontal
      lines down the height, each set flush with both edges. */
  method CrossHatchLines(width: int, height: int) returns (vertical: seq<Line>, horizontal: seq<Line>)
    requires width >= CrossWeight && height >= CrossWeight
    ensures |vertical| == CrossHorizontalSteps + 1 && |horizontal| == CrossVerticalSteps + 1
    ensures vertical[0].lo == 0 && vertical[CrossHorizontalSteps].hi == width
    ensures horizontal[0].lo == 0 && horizontal[CrossVerticalSteps].hi == height
    // with room for a pixel per box, no two vertical lines start on the same column
    ensures width >= CrossHorizontalSteps + CrossWeight ==>
              forall i :: 0 < i < |vertical| ==> vertical[i - 1].lo < vertical[i].lo
  {
    vertical := PlaceLines(width, CrossHorizontalSteps);
    horizontal := PlaceLines(height, CrossVerticalSteps);
    PlacedLines(width, CrossHorizontalSteps, vertical);
    PlacedLines(height, CrossVerticalSteps, horizontal);
  }
}

=== FILE: menu.dfy ===
/** The screen registry and the main menu's cursor and scroll logic of
    screens.c. Drawing, sounds and the scroll-indicator animation are left
    out; what remains is how the controls move the cursor, keep the visible
    window around it and pick the next screen. */
module Menu {
  import opened Controls

  /** An optional value: a table lookup's result, or a handler pointer that may be NULL. */
  datatype Option<T> = None | Some(value: T)

  /** Screen identifiers are C `unsigned int`s. */
  const U32Modulus: int := 0x1_0000_0000
  type U32 = x: int | 0 <= x < 0x1_0000_0000

  const ScreenMainMenu: U32 := 0
  const ScreenMonitorTests: U32 := 1
  const ScreenAudioTests: U32 := 2
  const ScreenInputTests: U32 := 3
  const ScreenEepromTests: U32 := 4
  const ScreenSramTests: U32 := 5
  const ScreenDipTests: U32 := 6
  const ScreenSystemMenu: U32 := 1001
  const ScreenRebootSystem: U32 := 1002

  /** The handler functions a menu entry can point at. */
  datatype Handler =
    | MonitorTests | AudioTests | InputTests | DipTests
    | EepromTests | SramTests | SystemMenu | RebootSystem

  /** A menu entry: label, screen id and handler (None for the NULL pointer
      of a separator). */
  datatype Entry = Entry(name: string, screen: U32, func: Option<Handler>)

  /** The `entries` table; the empty label is a visual separator. */
  const Entries: seq<Entry> := [
    Entry("Monitor Tests", ScreenMonitorTests, Some(MonitorTests)),
    Entry("Audio Tests", ScreenAudioTests, Some(AudioTests)),
    Entry("Input Tests", ScreenInputTests, Some(InputTests)),
    Entry("DIP Switch Tests", ScreenDipTests, Some(DipTests)),
    Entry("EEPROM Tests", ScreenEepromTests, Some(EepromTests)),
    Entry("SRAM Tests", ScreenSramTests, Some(SramTests)),
    Entry("", 0, None),
    Entry("BIOS Test Menu", ScreenSystemMenu, Some(SystemMenu)),
    Entry("Reboot Naomi", ScreenRebootSystem, Some(RebootSystem))
  ]

  predicate Separator(e: Entry)
  {
    |e.name| == 0
  }

  /** What the cursor loops rely on: a non-empty table whose first and last
      entries are not separators. */
  predicate WellFormed(entries: seq<Entry>)
  {
    |entries| > 0 && !Separator(entries[0]) && !Separator(entries[|entries| - 1])
  }

  /** The shipped table keeps that promise, and only its separator has a
      NULL handler, with screen id 0. */
  lemma EntriesWellFormed()
    ensures WellFormed(Entries)
    ensures forall k :: 0 <= k < |Entries| && Entries[k].func.None? ==> Entries[k].screen == ScreenMainMenu
    ensures forall k :: 0 <= k < |Entries| && !Separator(Entries[k]) ==>
              Entries[k].func.Some? && Entries[k].screen != ScreenMainMenu
  {
  }

  /** The forward skip over separators, starting at index i. */
  function NextNonEmpty(entries: seq<Entry>, i: nat): (r: nat)
    requires WellFormed(entries) && i < |entries|
    ensures i <= r < |entries| && !Separator(entries[r])
    ensures forall k :: i <= k < r ==> Separator(entries[k])
    decreases |entries| - i
  {
    if !Separator(entries[i]) then i else NextNonEmpty(entries, i + 1)
  }

  /** The backward skip over separators, starting at index i. */
  function PrevNonEmpty(entries: seq<Entry>, i: nat): (r: nat)
    requires WellFormed(entries) && i < |entries|
    ensures r <= i && !Separator(entries[r])
    ensures forall k :: r < k <= i ==> Separator(entries[k])
  {
    if !Separator(entries[i]) then i else PrevNonEmpty(entries, i - 1)
  }

  /** The main menu's retained state: cursor, first visible entry, and how
      many entries fit on the screen. */
  datatype MenuState = MenuState(cursor: nat, top: nat, maxEntries: nat)

  /** The scroll window shows the cursor. */
  predicate ScrollOk(m: MenuState)
  {
    m.top <= m.cursor < m.top + m.maxEntries
  }

  /** `(video_height() - (24 + 16)) / 21` in unsigned arithmetic. */
  function MaxEntries(videoHeight: U32): (n: nat)
    ensures videoHeight >= 40 ==> n * 21 <= videoHeight - 40 < n * 21 + 21
    ensures videoHeight >= 61 ==> n >= 1
  {
    ((videoHeight - 40) % U32Modulus) / 21
  }

  /** The reinit branch: the cursor comes back from `main_selected_entry` and
      the window is scrolled just far enough to show it. */
  function Reinit(selected: nat, maxEntries: nat): (m: MenuState)
    ensures m.cursor == selected && m.maxEntries == maxEntries
    ensures maxEntries >= 1 ==> ScrollOk(m)
    // the window starts at the top unless the cursor is beyond its first page
    ensures m.top == 0 <==> selected < maxEntries
    ensures m.top > 0 ==> m.top + maxEntries == selected + 1
  {
    if selected >= maxEntries then MenuState(selected, selected - (maxEntries - 1), maxEntries)
    else MenuState(selected, 0, maxEntries)
  }

  /** Scrolling after the cursor moved down: when the cursor falls below the
      window, the window is moved so that the cursor is its last line. */
  function ScrollDown(m: MenuState, cursor: nat): (r: MenuState)
    ensures r.cursor == cursor && r.maxEntries == m.maxEntries
    ensures ScrollOk(m) && m.cursor <= cursor ==> ScrollOk(r)
    // the window stays while it shows the cursor; otherwise the cursor becomes its last line
    ensures cursor < m.top + m.maxEntries ==> r.top == m.top
    ensures cursor >= m.top + m.maxEntries ==> r.top + m.maxEntries == cursor + 1
  {
    if cursor >= m.top + m.maxEntries then m.(cursor := cursor, top := cursor - (m.maxEntries - 1))
    else m.(cursor := cursor)
  }

  /** Scrolling after the cursor moved up: when the cursor rises above the
      window, the window starts at the cursor. */
  function ScrollUp(m: MenuState, cursor: nat): (r: MenuState)
    ensures r.cursor == cursor && r.maxEntries == m.maxEntries
    ensures ScrollOk(m) && cursor <= m.cursor ==> ScrollOk(r)
    // the window stays while it shows the cursor; otherwise the cursor becomes its first line
    ensures cursor >= m.top ==> r.top == m.top
    ensures cursor < m.top ==> r.top == cursor
  {
    if cursor < m.top then m.(cursor := cursor, top := cursor) else m.(cursor := cursor)
  }

  /** The window top `cursor - (maxentries - 1)` of the reinit branch and of
      a move down, taken modulo 2^32 as the unsigned source computes it,
      equals the unbounded value the model uses. That includes the case
      where no entry fits (heights 40 to 60): `maxentries - 1` wraps to
      0xFFFFFFFF and the top becomes cursor + 1, one past the cursor. */
  lemma UnsignedWindowTop(cursor: nat, m: MenuState)
    requires cursor + 1 < U32Modulus && m.maxEntries < U32Modulus
    requires cursor >= m.top + m.maxEntries
    ensures ScrollDown(m, cursor).top == (cursor - ((m.maxEntries - 1) % U32Modulus)) % U32Modulus
    ensures Reinit(cursor, m.maxEntries).top == (cursor - ((m.maxEntries - 1) % U32Modulus)) % U32Modulus
    ensures m.maxEntries == 0 ==> ScrollDown(m, cursor).top == cursor + 1
  {
    if m.maxEntries == 0 {
      assert (m.maxEntries - 1) % U32Modulus == U32Modulus - 1;
      assert cursor - (U32Modulus - 1) == cursor + 1 - U32Modulus;
    }
  }

  /** Cursor down: to the next non-empty entry, or nowhere from the last one. */
  function CursorDown(entries: seq<Entry>, cursor: nat): (r: nat)
    requires WellFormed(entries) && cursor < |entries|
    ensures r < |entries|
    ensures cursor == |entries| - 1 ==> r == cursor
    ensures cursor < |entries| - 1 ==>
              && cursor < r && !Separator(entries[r])
              && forall k :: cursor < k < r ==> Separator(entries[k])
  {
    if cursor < |entries| - 1 then NextNonEmpty(entries, cursor + 1) else cursor
  }

  /** Cursor up: to the previous non-empty entry, or nowhere from index 0. */
  function CursorUp(entries: seq<Entry>, cursor: nat): (r: nat)
    requires WellFormed(entries) && cursor < |entries|
    ensures r < |entries|
    ensures cursor == 0 ==> r == 0
    ensures cursor > 0 ==>
              && r < cursor && !Separator(entries[r])
              && forall k :: r < k < cursor ==> Separator(entries[k])
  {
    if cursor > 0 then PrevNonEmpty(entries, cursor - 1) else cursor
  }

  /** What the main menu hands back: its state, the remembered selection and
      the screen to show next. */
  datatype MenuResult = MenuResult(menu: MenuState, selected: nat, next: U32)

  /** The control handling of `main_menu`, after the reinit branch. */
  function MenuControls(entries: seq<Entry>, m: MenuState, selected: nat, e: Events): (r: MenuResult)
    requires WellFormed(entries) && m.cursor < |entries|
    ensures r.menu.cursor < |entries| && r.menu.maxEntries == m.maxEntries
    // the cursor never comes to rest on a separator
    ensures !Separator(entries[m.cursor]) ==> !Separator(entries[r.menu.cursor])
    // the scroll window keeps showing the cursor
    ensures ScrollOk(m) ==> ScrollOk(r.menu)
    // test or start enters the entry under the cursor and remembers it
    ensures e.test || e.start ==> r == MenuResult(m, m.cursor, entries[m.cursor].screen)
    // every other event stays in the main menu
    ensures !(e.test || e.start) ==> r.next == ScreenMainMenu && r.selected == selected
    // service moves down, wrapping from the last entry to the first
    ensures !(e.test || e.start) && e.service ==>
              r.menu.cursor == (if m.cursor == |entries| - 1 then 0 else CursorDown(entries, m.cursor))
    ensures !(e.test || e.start || e.service) && e.up ==> r.menu.cursor == CursorUp(entries, m.cursor)
    ensures !(e.test || e.start || e.service || e.up) && e.down ==> r.menu.cursor == CursorDown(entries, m.cursor)
    ensures !(e.test || e.start || e.service || e.up || e.down) ==> r.menu == m
    // each move shifts the window by the smallest step that keeps the cursor in view
    ensures !(e.test || e.start) && e.service && m.cursor < |entries| - 1 ==> r.menu == ScrollDown(m, r.menu.cursor)
    ensures !(e.test || e.start) && e.service && m.cursor == |entries| - 1 ==> r.menu == ScrollUp(m, 0)
    ensures !(e.test || e.start || e.service) && e.up ==> r.menu == ScrollUp(m, CursorUp(entries, m.cursor))
    ensures !(e.test || e.start || e.service || e.up) && e.down ==> r.menu == ScrollDown(m, CursorDown(entries, m.cursor))
  {
    if e.test || e.start then MenuResult(m, m.cursor, entries[m.cursor].screen)
    else if e.service then
      if m.cursor < |entries| - 1 then
        MenuResult(ScrollDown(m, NextNonEmpty(entries, m.cursor + 1)), selected, ScreenMainMenu)
      else
        MenuResult(ScrollUp(m, 0), selected, ScreenMainMenu)
    else if e.up then MenuResult(ScrollUp(m, CursorUp(entries, m.cursor)), selected, ScreenMainMenu)
    else if e.down then MenuResult(ScrollDown(m, CursorDown(entries, m.cursor)), selected, ScreenMainMenu)
    else MenuResult(m, selected, ScreenMainMenu)
  }

  /** `main_menu(state, reinit)` given this frame's events. */
  function MainMenu(entries: seq<Entry>, m: MenuState, selected: nat, reinit: bool,
                    videoHeight: U32, e: Events): (r: MenuResult)
    requires WellFormed(entries)
    requires reinit ==> selected < |entries|
    requires !reinit ==> m.cursor < |entries|
    ensures r.menu.cursor < |entries|
    ensures reinit ==> r.menu.maxEntries == MaxEntries(videoHeight)
    ensures !reinit ==> r.menu.maxEntries == m.maxEntries
    // with reinit the cursor starts from the remembered selection
    ensures reinit && !(e.test || e.start || e.service || e.up || e.down) ==> r.menu.cursor == selected
    ensures reinit && MaxEntries(videoHeight) >= 1 ==> ScrollOk(r.menu)
    ensures reinit && videoHeight >= 61 ==> ScrollOk(r.menu)
    ensures !reinit && ScrollOk(m) ==> ScrollOk(r.menu)
    // the cursor never rests on a separator, and neither does the remembered selection
    ensures reinit && !Separator(entries[selected]) ==> !Separator(entries[r.menu.cursor])
    ensures !reinit && !Separator(entries[m.cursor]) ==> !Separator(entries[r.menu.cursor])
    // entering a screen remembers the cursor; anything else keeps the old selection
    ensures e.test || e.start ==> r.selected == r.menu.cursor && r.next == entries[r.menu.cursor].screen
    ensures !(e.test || e.start) ==> r.selected == selected && r.next == ScreenMainMenu
    // from the state it starts in (the reinit state, or the retained one), each event moves
    // the cursor and the window as the menu's control handling does
    ensures var start := if reinit then Reinit(selected, MaxEntries(videoHeight)) else m;
      var last := |entries| - 1;
      && (!(e.test || e.start) && e.service && start.cursor < last ==>
            r.menu == ScrollDown(start, CursorDown(entries, start.cursor)))
      && (!(e.test || e.start) && e.service && start.cursor == last ==> r.menu == ScrollUp(start, 0))
      && (!(e.test || e.start || e.service) && e.up ==> r.menu == ScrollUp(start, CursorUp(entries, start.cursor)))
      && (!(e.test || e.start || e.service || e.up) && e.down ==>
            r.menu == ScrollDown(start, CursorDown(entries, start.cursor)))
      && (e.test || e.start ==> r.menu == start)
    // with no event the menu is the one it starts in: the retained one, or the reinit one
    ensures !(e.test || e.start || e.service || e.up || e.down) ==>
              r.menu == (if reinit then Reinit(selected, MaxEntries(videoHeight)) else m)
  {
    var start := if reinit then Reinit(selected, MaxEntries(videoHeight)) else m;
    MenuControls(entries, start, selected, e)
  }

  /** Between two non-empty entries with only separators in between, the
      backward search from just below the upper one finds the lower one. */
  lemma {:induction false} PrevNonEmptyFinds(entries: seq<Entry>, c: nat, i: nat)
    requires WellFormed(entries) && c <= i < |entries| && !Separator(entries[c])
    requires forall k :: c < k <= i ==> Separator(entries[k])
    ensures PrevNonEmpty(entries, i) == c
    decreases i
  {
    if i > c {
      PrevNonEmptyFinds(entries, c, i - 1);
    }
  }

  /** Between two non-empty entries with only separators in between, the
      forward search from just above the lower one finds the upper one. */
  lemma {:induction false} NextNonEmptyFinds(entries: seq<Entry>, c: nat, i: nat)
    requires WellFormed(entries) && i <= c < |entries| && !Separator(entries[c])
    requires forall k :: i <= k < c ==> Separator(entries[k])
    ensures NextNonEmpty(entries, i) == c
    decreases c - i
  {
    if i < c {
      NextNonEmptyFinds(entries, c, i + 1);
    }
  }

  /** Cursor down then cursor up comes back to a non-empty starting entry
      (below the last one, where down does not move). */
  lemma DownThenUp(entries: seq<Entry>, c: nat)
    requires WellFormed(entries) && c < |entries| - 1 && !Separator(entries[c])
    ensures CursorUp(entries, CursorDown(entries, c)) == c
  {
    var d := CursorDown(entries, c);
    PrevNonEmptyFinds(entries, c, d - 1);
  }

  /** Cursor up then cursor down comes back to a non-empty starting entry
      (above the first one, where up does not move). */
  lemma UpThenDown(entries: seq<Entry>, c: nat)
    requires WellFormed(entries) && 0 < c < |entries| && !Separator(entries[c])
    ensures CursorDown(entries, CursorUp(entries, c)) == c
  {
    var u := CursorUp(entries, c);
    NextNonEmptyFinds(entries, c, u + 1);
  }

  /** Service from the last entry wraps to the first and scrolls the window
      back to the top. */
  lemma ServiceWraps(entries: seq<Entry>, m: MenuState, selected: nat, e: Events)
    requires WellFormed(entries) && m.cursor == |entries| - 1
    requires e.service && !e.test && !e.start
    ensures MenuControls(entries, m, selected, e).menu.cursor == 0
    ensures MenuControls(entries, m, selected, e).menu.top == 0
  {
  }

  /** The remembered selection round trip: entering a screen from the menu
      stores the cursor, and the next reinit puts the cursor back there with
      the window showing it. */
  lemma SelectionRestored(entries: seq<Entry>, m: MenuState, selected: nat, e: Events, videoHeight: U32)
    requires WellFormed(entries) && m.cursor < |entries|
    requires e.test || e.start
    requires videoHeight >= 61
    ensures var back := Reinit(MenuControls(entries, m, selected, e).selected, MaxEntries(videoHeight));
      back.cursor == m.cursor && ScrollOk(back)
  {
  }
}

=== FILE: monitor.dfy ===
/** The page cycling of the monitor test screen (`monitor_tests` in
    screens.c). Page 0 shows the instructions, pages 1..6 the test patterns;
    the drawing itself is left out. */
module Monitor {
  import opened Controls
  import opened Menu

  /** Number of monitor pages, the instructions page included. */
  const MonitorTestScreens: nat := 7
  /** The last page. */
  const LastPage: nat := MonitorTestScreens - 1

  /** Service or right: the next page, wrapping from the last to page 1. */
  function NextPage(page: nat): (r: nat)
    ensures 1 <= r <= LastPage
    ensures page < LastPage ==> r == page + 1
    // from the last page (or beyond) it wraps to the first test page, skipping the instructions
    ensures page >= LastPage ==> r == 1
  {
    if page < LastPage then page + 1 else 1
  }

  /** Left: the previous page, wrapping from page 1 (or the instructions) to the last. */
  function PrevPage(page: nat): (r: nat)
    ensures page <= LastPage + 1 ==> 1 <= r <= LastPage
    ensures page > 1 ==> r == page - 1
    // from the first test page or the instructions it wraps to the last page
    ensures page <= 1 ==> r == LastPage
  {
    if page > 1 then page - 1 else LastPage
  }

  datatype MonitorResult = MonitorResult(page: nat, next: U32)

  /** `monitor_tests(state, reinit)` given this frame's events. */
  function MonitorTestsStep(page: nat, reinit: bool, e: Events): (r: MonitorResult)
    // test or start leaves for the main menu; everything else stays
    ensures r.next == (if e.test || e.start then ScreenMainMenu else ScreenMonitorTests)
    // reinit shows the instructions unless this frame's events turn the page
    ensures reinit && !(e.test || e.start) && (e.service || e.right) ==> r.page == 1
    ensures reinit && !(e.test || e.start || e.service || e.right) && e.left ==> r.page == LastPage
    ensures reinit && !(e.service || e.right || e.left) ==> r.page == 0
    // the page stays within 0..6, and once it has left page 0 it stays in 1..6
    ensures page <= LastPage || reinit ==> r.page <= LastPage
    ensures !reinit && 1 <= page <= LastPage ==> 1 <= r.page <= LastPage
    ensures !(e.service || e.right || e.left) || e.test || e.start ==> r.page == (if reinit then 0 else page)
    // service or right turns to the next page, left (without them) to the previous one
    ensures !(e.test || e.start) && (e.service || e.right) ==> r.page == NextPage(if reinit then 0 else page)
    ensures !(e.test || e.start || e.service || e.right) && e.left ==> r.page == PrevPage(if reinit then 0 else page)
  {
    var p := if reinit then 0 else page;
    if e.test || e.start then MonitorResult(p, ScreenMainMenu)
    else if e.service || e.right then MonitorResult(NextPage(p), ScreenMonitorTests)
    else if e.left then MonitorResult(PrevPage(p), ScreenMonitorTests)
    else MonitorResult(p, ScreenMonitorTests)
  }

  /** Left undoes right, and right undoes left, on the test pages. */
  lemma PagesRoundTrip(page: nat)
    requires 1 <= page <= LastPage
    ensures PrevPage(NextPage(page)) == page
    ensures NextPage(PrevPage(page)) == page
  {
  }

  /** Applies `NextPage` n times. */
  function Forward(page: nat, n: nat): (r: nat)
    decreases n
  {
    if n == 0 then page else Forward(NextPage(page), n - 1)
  }

  /** Six presses of right cycle through every test page back to the start. */
  lemma {:induction false} ForwardCycle(page: nat)
    requires 1 <= page <= LastPage
    ensures Forward(page, LastPage) == page
    ensures forall n :: 1 <= n <= LastPage ==> 1 <= Forward(page, n) <= LastPage
  {
    var p1 := NextPage(page);
    var p2 := NextPage(p1);
    var p3 := NextPage(p2);
    var p4 := NextPage(p3);
    var p5 := NextPage(p4);
    var p6 := NextPage(p5);
    assert Forward(p6, 0) == p6;
    assert Forward(p5, 1) == p6;
    assert Forward(p4, 2) == p6;
    assert Forward(p3, 3) == p6;
    assert Forward(p2, 4) == p6;
    assert Forward(p1, 5) == p6;
    assert Forward(page, 6) == p6;
  }
}

=== FILE: navigator.dfy ===
/** The screen dispatcher of screens.c (`draw_screen`): one call per video
    frame runs the handler of the current screen, passing `reinit` when the
    screen differs from the one run on the previous frame, and moves to the
    screen that handler asks for.

    The static variables the source keeps in its handlers and in the
    controls sampler are gathered into one `Nav` record. Time passing
    between frames is an input (`dt`, in the timer's microseconds); the
    hardware timers count it down before the frame is handled.
 */
module Navigator {
  import opened RepeatTimer
  import opened Controls
  import opened Menu
  import opened Monitor

  /** Everything `draw_screen` and the handlers it calls keep between frames. */
  datatype Nav = Nav(
    cur: U32,            // curscreen
    prev: U32,           // oldscreen
    selected: nat,       // main_selected_entry
    menu: MenuState,     // cursor, top and maxentries of main_menu
    page: nat,           // the page of monitor_tests
    slots: Slots)        // the repeat slots of get_controls

  /** The power-on state: the main menu is current and `oldscreen` is
      `(unsigned int)-1`, so the first frame runs with reinit. */
  const Init: Nav := Nav(ScreenMainMenu, U32Modulus - 1, 0, MenuState(0, 0, 0), 0, AllUnarmed)

  /** One frame's inputs: the bus poll, the time since the previous frame,
      the configured player count, the separated-controls mode and the
      screen height. */
  datatype Frame = Frame(pressed: Buttons, held: Buttons, dt: nat, players: int,
                         fullSeparate: bool, videoHeight: U32)

  /** The frame's elapsed time applied to every armed countdown. */
  function ElapseSlots(s: Slots, dt: nat): (r: Slots)
    // each of the eight hardware timers runs down by the same elapsed time
    ensures forall i :: 0 <= i < 8 ==> SlotAt(r, i) == Elapse(SlotAt(s, i), dt)
    ensures s == AllUnarmed ==> r == AllUnarmed
    ensures dt == 0 ==> r == s
  {
    var e := (p: SlotPair) => SlotPair(Elapse(p.p1, dt), Elapse(p.p2, dt));
    Slots(AxisSlots(e(s.vertical.first), e(s.vertical.second)),
          AxisSlots(e(s.lateral.first), e(s.lateral.second)))
  }

  /** The scan of `entries` for the current screen, from index `from`:
      the first entry with that screen id, if any. */
  function LookupFrom(entries: seq<Entry>, id: U32, from: nat): (r: Option<nat>)
    requires from <= |entries|
    ensures r.Some? ==> from <= r.value < |entries| && entries[r.value].screen == id
    ensures r.Some? ==> forall k :: from <= k < r.value ==> entries[k].screen != id
    ensures r.None? <==> forall k :: from <= k < |entries| ==> entries[k].screen != id
    decreases |entries| - from
  {
    if from == |entries| then None
    else if entries[from].screen == id then Some(from)
    else LookupFrom(entries, id, from + 1)
  }

  /** The scan of `draw_screen` over the whole table. */
  function Lookup(entries: seq<Entry>, id: U32): (r: Option<nat>)
    ensures r.Some? ==> r.value < |entries| && entries[r.value].screen == id
    ensures r.Some? ==> forall k :: 0 <= k < r.value ==> entries[k].screen != id
    ensures r.None? <==> forall k :: 0 <= k < |entries| ==> entries[k].screen != id
  {
    LookupFrom(entries, id, 0)
  }

  /** Where the scan stops in the shipped table: the separator's id 0 is
      never reached for a nonzero id, and ids outside the table are not found. */
  function TableIndex(id: U32): Option<nat>
  {
    if id == ScreenMonitorTests then Some(0)
    else if id == ScreenAudioTests then Some(1)
    else if id == ScreenInputTests then Some(2)
    else if id == ScreenDipTests then Some(3)
    else if id == ScreenEepromTests then Some(4)
    else if id == ScreenSramTests then Some(5)
    else if id == ScreenSystemMenu then Some(7)
    else if id == ScreenRebootSystem then Some(8)
    else None
  }

  /** The scan of the second half of the shipped table, past the separator
      for every nonzero id. */
  lemma LookupTail(id: U32)
    requires id != ScreenMainMenu
    ensures LookupFrom(Entries, id, 4) ==
      if id == ScreenEepromTests then Some(4)
      else if id == ScreenSramTests then Some(5)
      else if id == ScreenSystemMenu then Some(7)
      else if id == ScreenRebootSystem then Some(8)
      else None
  {
    assert LookupFrom(Entries, id, 9) == None;
    assert LookupFrom(Entries, id, 8) == if id == ScreenRebootSystem then Some(8) else None;
    assert LookupFrom(Entries, id, 7) == if id == ScreenSystemMenu then Some(7) else LookupFrom(Entries, id, 8);
    assert LookupFrom(Entries, id, 6) == LookupFrom(Entries, id, 7);
    assert LookupFrom(Entries, id, 5) == if id == ScreenSramTests then Some(5) else LookupFrom(Entries, id, 6);
  }

  /** The scan of the shipped table agrees with `TableIndex` on every nonzero id. */
  lemma LookupTable(id: U32)
    requires id != ScreenMainMenu
    ensures Lookup(Entries, id) == TableIndex(id)
  {
    LookupTail(id);
    assert LookupFrom(Entries, id, 3) == if id == ScreenDipTests then Some(3) else LookupFrom(Entries, id, 4);
    assert LookupFrom(Entries, id, 2) == if id == ScreenInputTests then Some(2) else LookupFrom(Entries, id, 3);
    assert LookupFrom(Entries, id, 1) == if id == ScreenAudioTests then Some(1) else LookupFrom(Entries, id, 2);
  }

  /** Every screen id but the main menu's is found, if at all, at an entry
      whose handler pointer is set: the separator's NULL is never called. */
  lemma LookupFindsHandler(id: U32)
    requires id != ScreenMainMenu
    ensures var k := Lookup(Entries, id);
      k.Some? ==> k.value < |Entries| && Entries[k.value].func.Some? && !Separator(Entries[k.value])
  {
    EntriesWellFormed();
  }

  /** What the dispatcher needs of the retained state: the remembered
      selection and the cursor are real entries, the monitor page is in
      range, and once the menu has measured the screen its window shows the
      cursor. */
  predicate Valid(n: Nav)
  {
    && n.selected < |Entries| && !Separator(Entries[n.selected])
    && n.menu.cursor < |Entries| && !Separator(Entries[n.menu.cursor])
    && n.page <= LastPage
    && (n.menu.maxEntries >= 1 ==> ScrollOk(n.menu))
  }

  /** A handler's result: the retained state after it ran, and the screen it asks for. */
  datatype Outcome = Outcome(nav: Nav, next: U32)

  /** `main_menu` on this frame: sample the controls, then move the cursor. */
  function MainMenuFrame(n: Nav, f: Frame, reinit: bool): (r: Outcome)
    requires Valid(n)
    ensures Valid(r.nav)
    // only the menu's own variables and the repeat slots change
    ensures r.nav == n.(selected := r.nav.selected, menu := r.nav.menu, slots := r.nav.slots)
    // it either stays, or enters the entry under the cursor and remembers it
    ensures r.next == ScreenMainMenu
            || (r.nav.selected == r.nav.menu.cursor && r.next == Entries[r.nav.menu.cursor].screen)
    // the menu acts on this frame's sampled controls: it leaves exactly on test or start,
    // and its cursor, window and repeat slots are what the sample and the menu logic make of them
    ensures var g := GetControls(f.pressed, f.held, f.players, f.fullSeparate, reinit, n.slots);
      var e := g.controls.events;
      && r.nav.slots == g.slots
      && (r.next != ScreenMainMenu <==> e.test || e.start)
      && r.nav.menu == MainMenu(Entries, n.menu, n.selected, reinit, f.videoHeight, e).menu
      && (!(e.test || e.start) ==> r.nav.selected == n.selected)
  {
    EntriesWellFormed();
    var s := GetControls(f.pressed, f.held, f.players, f.fullSeparate, reinit, n.slots);
    var m := MainMenu(Entries, n.menu, n.selected, reinit, f.videoHeight, s.controls.events);
    Outcome(n.(selected := m.selected, menu := m.menu, slots := s.slots), m.next)
  }

  /** `monitor_tests` on this frame: sample the controls, then turn the page. */
  function MonitorFrame(n: Nav, f: Frame, reinit: bool): (r: Outcome)
    ensures r.nav == n.(page := r.nav.page, slots := r.nav.slots)
    ensures n.page <= LastPage || reinit ==> r.nav.page <= LastPage
    ensures r.next == ScreenMainMenu || r.next == ScreenMonitorTests
    // the page turns on this frame's sampled controls, and test or start leaves
    ensures var g := GetControls(f.pressed, f.held, f.players, f.fullSeparate, reinit, n.slots);
      var e := g.controls.events;
      && r.nav.slots == g.slots
      && (r.next == ScreenMainMenu <==> e.test || e.start)
      && r.nav.page == MonitorTestsStep(n.page, reinit, e).page
  {
    var s := GetControls(f.pressed, f.held, f.players, f.fullSeparate, reinit, n.slots);
    var m := MonitorTestsStep(n.page, reinit, s.controls.events);
    Outcome(n.(page := m.page, slots := s.slots), m.next)
  }

  /** Calls the handler an entry points at. The audio, input, DIP switch,
      EEPROM and SRAM screens have no body yet and return to the main menu
      at once; the BIOS menu and reboot entries ask for their own screen. */
  function RunHandler(h: Handler, n: Nav, f: Frame, reinit: bool): (r: Outcome)
    ensures h != MonitorTests ==> r.nav == n
    ensures h == MonitorTests ==> r == MonitorFrame(n, f, reinit)
    ensures h in {AudioTests, InputTests, DipTests, EepromTests, SramTests} ==> r.next == ScreenMainMenu
    ensures h == SystemMenu ==> r.next == ScreenSystemMenu
    ensures h == RebootSystem ==> r.next == ScreenRebootSystem
  {
    match h
    case MonitorTests => MonitorFrame(n, f, reinit)
    case AudioTests => Outcome(n, ScreenMainMenu)
    case InputTests => Outcome(n, ScreenMainMenu)
    case DipTests => Outcome(n, ScreenMainMenu)
    case EepromTests => Outcome(n, ScreenMainMenu)
    case SramTests => Outcome(n, ScreenMainMenu)
    case SystemMenu => Outcome(n, ScreenSystemMenu)
    case RebootSystem => Outcome(n, ScreenRebootSystem)
  }

  /** The `switch` of `draw_screen`: the main menu directly, any other screen
      through the first entry carrying its id, and an unknown id stays put. */
  function Dispatch(n: Nav, f: Frame, reinit: bool): (r: Outcome)
    requires Valid(n)
    ensures Valid(r.nav)
    ensures n.cur != ScreenMainMenu ==> r.nav.selected == n.selected && r.nav.menu == n.menu
    ensures n.cur != ScreenMainMenu && Lookup(Entries, n.cur).None? ==> r == Outcome(n, n.cur)
    // each screen of the table runs its own handler
    ensures n.cur == ScreenMainMenu ==> r == MainMenuFrame(n, f, reinit)
    ensures n.cur == ScreenMonitorTests ==> r == MonitorFrame(n, f, reinit)
    ensures n.cur in {ScreenAudioTests, ScreenInputTests, ScreenDipTests, ScreenEepromTests, ScreenSramTests} ==>
              r == Outcome(n, ScreenMainMenu)
    ensures n.cur in {ScreenSystemMenu, ScreenRebootSystem} ==> r == Outcome(n, n.cur)
  {
    if n.cur == ScreenMainMenu then MainMenuFrame(n, f, reinit)
    else
      LookupTable(n.cur);
      match Lookup(Entries, n.cur)
      case None => Outcome(n, n.cur)
      case Some(k) =>
        LookupFindsHandler(n.cur);
        RunHandler(Entries[k].func.value, n, f, reinit)
  }

  /** `draw_screen`: time passes, the current screen's handler runs (with
      reinit on the first frame of a screen), and the requested screen
      becomes current. */
  function DrawScreen(n: Nav, f: Frame): (r: Nav)
    requires Valid(n)
    ensures Valid(r)
    ensures r.prev == n.cur
    // the next frame reinitialises exactly when the handler asked for another screen
    ensures r.cur != r.prev <==> Dispatch(n.(slots := ElapseSlots(n.slots, f.dt)), f, n.cur != n.prev).next != n.cur
    // the screen the handler returns becomes current, and the handler's retained state is kept
    ensures var d := Dispatch(n.(slots := ElapseSlots(n.slots, f.dt)), f, n.cur != n.prev);
      && r.cur == d.next
      && r.selected == d.nav.selected && r.menu == d.nav.menu && r.page == d.nav.page && r.slots == d.nav.slots
  {
    var o := Dispatch(n.(slots := ElapseSlots(n.slots, f.dt)), f, n.cur != n.prev);
    o.nav.(prev := n.cur, cur := o.next)
  }

  /** The screens `draw_screen` can be on: the main menu or an id in the table. */
  predicate Known(id: U32)
  {
    id == ScreenMainMenu || exists k :: 0 <= k < |Entries| && Entries[k].screen == id
  }

  /** The power-on state is valid, and its first frame runs the main menu
      with reinit, so the menu measures the screen before anything else. */
  lemma FirstFrame(f: Frame)
    ensures Valid(Init) && Known(Init.cur)
    ensures var r := DrawScreen(Init, f);
      r.prev == ScreenMainMenu && r.menu.maxEntries == MaxEntries(f.videoHeight)
  {
    EntriesWellFormed();
  }

  /** Starting from a known screen, the dispatcher only ever moves to known screens. */
  lemma KnownScreensStayKnown(n: Nav, f: Frame)
    requires Valid(n) && Known(n.cur)
    ensures Known(DrawScreen(n, f).cur)
  {
    EntriesWellFormed();
    var n' := n.(slots := ElapseSlots(n.slots, f.dt));
    var o := Dispatch(n', f, n.cur != n.prev);
    if n.cur == ScreenMainMenu {
      if o.next != ScreenMainMenu {
        assert Entries[o.nav.menu.cursor].screen == o.next;
      }
    } else {
      LookupTable(n.cur);
      if n.cur == ScreenMonitorTests {
        assert Entries[0].screen == ScreenMonitorTests;
      }
    }
  }

  /** A screen id that is not in the table is retried forever: the state
      stays as it was apart from the timers, and no reinit follows. */
  lemma UnknownScreenStays(n: Nav, f: Frame)
    requires Valid(n) && !Known(n.cur)
    ensures DrawScreen(n, f) == n.(prev := n.cur, slots := ElapseSlots(n.slots, f.dt))
  {
    LookupTable(n.cur);
  }

  /** Outside the main menu the remembered selection and the menu window
      are left alone. */
  lemma MenuUntouchedElsewhere(n: Nav, f: Frame)
    requires Valid(n) && n.cur != ScreenMainMenu
    ensures DrawScreen(n, f).selected == n.selected && DrawScreen(n, f).menu == n.menu
  {
  }

  /** The unimplemented test screens bounce straight back to the main menu,
      which is then reinitialised. */
  lemma StubsBounce(n: Nav, f: Frame)
    requires Valid(n)
    requires n.cur in {ScreenAudioTests, ScreenInputTests, ScreenDipTests, ScreenEepromTests, ScreenSramTests}
    ensures var r := DrawScreen(n, f);
      r.cur == ScreenMainMenu && r.prev == n.cur && r.cur != r.prev
      && r.selected == n.selected && r.menu == n.menu && r.page == n.page
  {
    var n' := n.(slots := ElapseSlots(n.slots, f.dt));
    LookupTable(n.cur);
    var k := TableIndex(n.cur).value;
    assert 1 <= k <= 5;
    assert Entries[k].func.value in {AudioTests, InputTests, DipTests, EepromTests, SramTests};
    assert Dispatch(n', f, n.cur != n.prev) == Outcome(n', ScreenMainMenu);
  }

  /** No button pressed on this frame. */
  predicate NothingPressed(b: Buttons)
  {
    && !b.test && !b.psw1 && !b.psw2
    && !b.player1.start && !b.player1.service && !b.player1.up && !b.player1.down
    && !b.player2.start && !b.player2.service && !b.player2.up && !b.player2.down
  }

  /** Coming back to the main menu from another screen puts the cursor on
      the entry that was entered last: reinit clears the repeat slots, so
      holding a direction cannot move the cursor on that first frame. */
  lemma ReturnToMenuRestoresCursor(n: Nav, f: Frame)
    requires Valid(n) && n.cur == ScreenMainMenu && n.prev != ScreenMainMenu
    requires NothingPressed(f.pressed)
    ensures DrawScreen(n, f).menu.cursor == n.selected
    ensures DrawScreen(n, f).cur == ScreenMainMenu
  {
    var slots := ElapseSlots(n.slots, f.dt);
    ReinitOnlyEdges(f.pressed, f.held, f.players, f.fullSeparate, slots);
  }

  /** A direction pressed and held on one frame, then held with nothing
      pressed: after `dt` microseconds the hardware timers have run, and the
      later frame reports the direction exactly when the initial delay of
      500000 µs has passed (player 2 not holding it). */
  lemma HeldUpRepeatsAfterInitialDelay(f: Frame, reinit: bool, slots: Slots, dt: nat, held: Buttons)
    requires f.pressed.player1.up && f.held.player1.up
    requires !TestEvent(f.pressed, f.fullSeparate) && !ServiceEvent(f.pressed, f.players, f.fullSeparate)
    requires !StartEvent(f.pressed, f.players)
    requires held.player1.up && !held.player2.up
    ensures var g := GetControls(f.pressed, f.held, f.players, f.fullSeparate, reinit, slots);
      var g' := GetControls(NoButtons, held, f.players, f.fullSeparate, false, ElapseSlots(g.slots, dt));
      g.controls.events.up && (g'.controls.events.up <==> dt >= InitialDelay)
  {
    var g := GetControls(f.pressed, f.held, f.players, f.fullSeparate, reinit, slots);
    var s := if reinit then AllUnarmed else slots;
    assert EdgeSlotAt(f.pressed, f.held, f.players >= 2, s, 0) == Armed(InitialDelay);
    assert SlotAt(g.slots, 0) == Armed(InitialDelay);
    var t := ElapseSlots(g.slots, dt);
    assert SlotAt(t, 0) == Elapse(Armed(InitialDelay), dt);
  }
}

=== FILE: repeat.dfy ===
/** The per-button auto-repeat timer of controls.c.

    A repeat slot is either unarmed (the source stores -1) or holds a hardware
    countdown timer. The hardware timer is abstracted as the number of
    microseconds it has left; `Elapse` is the explicit passage of time between
    two polls, and a timer with nothing left has expired.
 */
module RepeatTimer {

  /** Delay before the first repeat of a held button, in microseconds. */
  const InitialDelay: nat := 500000
  /** Delay between two later repeats of a held button, in microseconds. */
  const SubsequentDelay: nat := 50000

  /** One repeat slot: no timer, or a countdown with `remaining` microseconds left. */
  datatype Slot = Unarmed | Armed(remaining: nat)
  {
    predicate Expired() {
      Armed? && remaining == 0
    }
  }

  /** The result of polling one slot: did it fire, and the slot afterwards. */
  datatype Poll = Poll(fired: bool, slot: Slot)

  /** Time passing: an armed countdown runs down towards zero and stops there. */
  function Elapse(s: Slot, dt: nat): (r: Slot)
    ensures r.Unarmed? <==> s.Unarmed?
    ensures s.Armed? ==> r.remaining <= s.remaining
    ensures s.Armed? ==> (r.Expired() <==> dt >= s.remaining)
    ensures s.Armed? && !r.Expired() ==> r.remaining + dt == s.remaining
  {
    match s
    case Unarmed => Unarmed
    case Armed(left) => if dt >= left then Armed(0) else Armed(left - dt)
  }

  /** `repeat`: polls a slot with the button's current held level. */
  function Repeat(held: bool, s: Slot): (r: Poll)
    // it fires exactly when the button is held and its countdown has expired
    ensures r.fired <==> held && s.Expired()
    // an unarmed slot is left alone, whatever the button does
    ensures s.Unarmed? ==> r.slot == Unarmed
    // releasing the button disarms the slot
    ensures !held ==> r.slot == Unarmed
    // firing re-arms with the short cadence
    ensures r.fired ==> r.slot == Armed(SubsequentDelay)
    // a held button whose countdown is still running changes nothing
    ensures held && s.Armed? && !s.Expired() ==> r.slot == s
  {
    if s.Unarmed? then Poll(false, s)
    else if !held then Poll(false, Unarmed)
    else if s.remaining == 0 then Poll(true, Armed(SubsequentDelay))
    else Poll(false, s)
  }

  /** `repeat_init`: a fresh press (re)arms the slot with the long initial delay. */
  function RepeatInit(pushed: bool, s: Slot): (r: Slot)
    ensures !pushed ==> r == s
    ensures pushed ==> r == Armed(InitialDelay) && !r.Expired()
  {
    if !pushed then s else Armed(InitialDelay)
  }

  /** One poll of a single button without a fresh press: `dt` microseconds
      pass, then the slot is polled with the held level. */
  datatype HoldFrame = HoldFrame(dt: nat, held: bool)

  datatype Trace = Trace(fires: seq<bool>, slot: Slot)

  /** Polls a slot over consecutive frames in which the button is not freshly pressed. */
  function Run(s: Slot, frames: seq<HoldFrame>): (r: Trace)
    ensures |r.fires| == |frames|
    decreases |frames|
  {
    if |frames| == 0 then Trace([], s)
    else
      var p := Repeat(frames[0].held, Elapse(s, frames[0].dt));
      var rest := Run(p.slot, frames[1..]);
      Trace([p.fired] + rest.fires, rest.slot)
  }

  /** Number of frames that fired. */
  function Count(fires: seq<bool>): (n: nat)
    ensures n <= |fires|
  {
    if |fires| == 0 then 0 else (if fires[0] then 1 else 0) + Count(fires[1..])
  }

  /** Total time over the frames. */
  function Total(frames: seq<HoldFrame>): nat
  {
    if |frames| == 0 then 0 else frames[0].dt + Total(frames[1..])
  }

  predicate AllHeld(frames: seq<HoldFrame>)
  {
    forall i :: 0 <= i < |frames| ==> frames[i].held
  }

  /** An unarmed slot never fires, however long the button is held: a button
      held across a reset does not repeat until it is freshly pressed. */
  lemma {:induction false} UnarmedNeverFires(frames: seq<HoldFrame>)
    ensures Run(Unarmed, frames).slot == Unarmed
    ensures forall i :: 0 <= i < |frames| ==> !Run(Unarmed, frames).fires[i]
    decreases |frames|
  {
    if |frames| > 0 {
      UnarmedNeverFires(frames[1..]);
    }
  }

  /** A release stops repetition, and it stays stopped until the next fresh press. */
  lemma ReleaseStopsRepeat(s: Slot, frames: seq<HoldFrame>)
    requires |frames| > 0 && !frames[0].held
    ensures forall i :: 0 <= i < |frames| ==> !Run(s, frames).fires[i]
    ensures Run(s, frames).slot == Unarmed
  {
    UnarmedNeverFires(frames[1..]);
  }

  /** The invariant behind the repeat cadence: over a run of held frames,
      each fire costs `SubsequentDelay` microseconds of countdown, so
      remaining + elapsed - SubsequentDelay * fires never drops below the
      starting countdown. */
  lemma {:induction false} HeldRunAccounting(r: nat, frames: seq<HoldFrame>)
    requires AllHeld(frames)
    ensures var t := Run(Armed(r), frames);
      && t.slot.Armed?
      && t.slot.remaining + Total(frames) >= r + SubsequentDelay * Count(t.fires)
      && (Count(t.fires) == 0 ==> t.slot.remaining <= r)
      && (Count(t.fires) >= 1 ==> t.slot.remaining <= SubsequentDelay)
    decreases |frames|
  {
    if |frames| > 0 {
      var p := Repeat(true, Elapse(Armed(r), frames[0].dt));
      assert AllHeld(frames[1..]) by {
        forall i | 0 <= i < |frames[1..]| ensures frames[1..][i].held {
          assert frames[1..][i] == frames[i + 1];
        }
      }
      HeldRunAccounting(p.slot.remaining, frames[1..]);
      var t := Run(Armed(r), frames);
      var rest := Run(p.slot, frames[1..]);
      assert t.fires == [p.fired] + rest.fires;
      assert ([p.fired] + rest.fires)[1..] == rest.fires;
      assert Count(t.fires) == (if p.fired then 1 else 0) + Count(rest.fires);
    }
  }

  /** Repeat cadence: a button freshly pressed (slot armed with the initial
      delay) and then held must be held at least 500000 microseconds for the
      first repeat, and 50000 more for each further repeat. */
  lemma RepeatCadence(frames: seq<HoldFrame>)
    requires AllHeld(frames)
    ensures var n := Count(Run(Armed(InitialDelay), frames).fires);
      n >= 1 ==> Total(frames) >= InitialDelay + SubsequentDelay * (n - 1)
  {
    HeldRunAccounting(InitialDelay, frames);
  }
}
